=== FILE: README.md ===
# Product Scanner scan resolution in Dafny

This project models the backend of Product Scanner: the path from a scanned
barcode to an analysed, region-flagged and cached product record. It covers:

- barcode validation (`validateBarcode`);
- the product cache (`getProductFromCache`, `cacheProduct`) over a map from
  barcode to stored document, with an explicit millisecond clock;
- the Open Food Facts response mapping (`fetchProductFromOpenFoodFacts` after
  the HTTP call);
- the analyser entry point (`analyzeProductWithAI`): its fallback/null dispatch
  and its sanity pass over a model answer;
- the rule-based fallback analyser (`generateFallbackAnalysis`);
- the region rule evaluator (`computeRegionFlags`);
- the pipeline `analyzeAndCacheProduct`, with its case-insensitive first-match
  merge of risk entries onto ingredients;
- the `POST /scan` handler: context building, `harmfulSummary`, and the mapping
  of outcomes to 400, 404, 200 and 500;
- the schema constraints of `Product.js` as predicates on the records.

The external collaborators are parameters:
- the catalog is a function from barcode to HTTP outcome;
- the language model is either unconfigured or a function from product and
  context to "threw" or a parsed answer;
- token verification is a function from token to user id;
- database availability is a pair of booleans for reads and writes.

Each pipeline call reads one clock value `now`.

Files, one module each:
- `wrappers.dfy`: `Option`.
- `js_text.dfy`: the JavaScript string behaviour the code relies on. This
  covers `trim`, `toLowerCase`, `includes` and `join`, plus the `||` defaulting
  on strings and numbers.
- `product_model.dfy`: the records and the schema predicates.
- `barcode.dfy`, `cache.dfy`, `catalog.dfy`, `ai_analysis.dfy`, `fallback.dfy`,
  `region.dfy`, `pipeline.dfy`, `scan_route.dfy`: one per piece of the backend.

An unconfigured analyser client returns the rule-based fallback
(backend/services/aiAnalysisService.js:25-29). The "AI analysis unavailable" document
(backend/services/productService.js:89-102) is built only when the model call
throws (backend/services/aiAnalysisService.js:91-94).

## Model

| member | source | states |
|---|---|---|
| JsText.Trim | backend/services/productService.js:10 | The result is the input with only whitespace removed at each end, and it starts and ends with non-whitespace (or is empty). |
| JsText.TrimOfPadded | backend/services/productService.js:10 | Trimming whitespace padding around an already trimmed text gives back exactly that text. |
| JsText.TrimIdempotent | backend/services/productService.js:10 | Trimming twice is trimming once. |
| JsText.Contains | backend/services/regionService.js:29-31 | `includes` holds exactly when the term occurs at some position of the text. |
| JsText.Lower | backend/services/regionService.js:30 | Lower-casing keeps the length and maps each character on its own: capitals A-Z become a-z, everything else is kept. |
| JsText.LowerOfLowercase | backend/services/regionService.js:30 | Lower-casing a text with no capital letters leaves it unchanged. |
| JsText.Join | backend/services/openFoodFactsService.js:31 | `join` of no parts is "", of one part is that part, and otherwise starts with the first part. Its length is the parts' total plus one separator between each neighbouring pair. |
| JsText.JoinAppend | backend/services/openFoodFactsService.js:31 | Joining two non-empty lists of parts is joining each and putting one separator between them. With the one-part case this fixes `join` for every list: the parts in order, separated by `sep`. |
| Barcode.AsString | backend/services/productService.js:10 | `String(barcode \|\| "")`: a falsy value (absent, "", 0) becomes "", a string is kept, and a non-zero number becomes a digit string denoting that number. |
| Barcode.Decimal | backend/services/productService.js:10 | `String(n)` is a non-empty digit string with no leading zero whose digits denote `n`. |
| Barcode.DecimalOfDigits | backend/services/productService.js:10 | Every digit string without a leading zero is the rendering of the number it denotes, so the rendering of `n` is the only such string for `n`. |
| Barcode.Validate | backend/services/productService.js:9-18 | Success returns 8, 12 or 13 ASCII digits, found in the coerced input with only whitespace around them. Failure carries the fixed INVALID_BARCODE message, and then no padded part of the input is in barcode format. |
| Barcode.ValidateIdempotent | backend/services/productService.js:10-17 | Validating a validated barcode returns it unchanged. |
| Barcode.DecimalLength | backend/services/productService.js:10 | The decimal rendering of a number has at most k digits exactly when the number is below 10^k. |
| Barcode.NumericBarcode | backend/services/productService.js:10-12 | A barcode sent as a JSON number is accepted exactly when it has 8, 12 or 13 significant digits (leading zeros are lost), and it is then its decimal rendering. |
| Cache.StoreInvariant | backend/services/productService.js:42-70 | Every stored document sits under its own barcode, passes the product schema, is stored with source "live", has been scanned at least once, and was cached no later than it expires. |
| Cache.Lookup | backend/services/productService.js:20-40 | A hit needs a working read, a successful save of the bumped count (both in the one `try`), and an expiry strictly after `now`. A hit bumps the stored scan count by one, stamps `lastScannedAt`, and returns the document marked `source = "cache"`. A miss, a failed read or a failed save changes nothing. The keys and the store invariant are kept. |
| Cache.Upsert | backend/services/productService.js:42-70 | A successful write stores the document under its barcode and leaves other entries untouched. It sets `cachedAt = now` and expiry to now plus ttl days in milliseconds. An existing entry keeps its scan count and last scan time; a new one starts at count 1, scanned now. A failed lookup of the existing entry, a failed save or a schema-refused write returns the document without bookkeeping and leaves the store alone. The store invariant is kept. |
| Cache.WriteThenRead | backend/services/productService.js:20-70 | A document written at t1 is served by any lookup before t1 + ttl, with the same content, count one higher, and source "cache". |
| Cache.ExpiredIsMiss | backend/services/productService.js:23-27 | An entry whose expiry is at or before `now` is never served, and the lookup changes nothing. |
| Cache.RewriteKeepsCount | backend/services/productService.js:48-55 | Rewriting an existing barcode never resets its scan count. |
| Catalog.MapIngredient | backend/services/openFoodFactsService.js:16-23 | The name is the text or "Unknown ingredient". The percentage is a truthy estimate, else a truthy declared percent, else absent; zero falls through at each step. The analysis fields start not harmful, "low" and "", and the result passes the ingredient schema. |
| Catalog.MapIngredients | backend/services/openFoodFactsService.js:16-23 | Same length and order as the catalog list; every entry is not harmful, low risk, with an empty description. |
| Catalog.MapProduct | backend/services/openFoodFactsService.js:25-37 | The barcode is the one requested and the product name is never empty, following product_name, then generic_name, then "Unknown product". Brand and category are the chains of `Brand` and `Category`. The image is the front small image, else the thumbnail, else the plain image URL. The grade is kept when non-empty, else "". Missing nutriments give an empty map, and the ingredients are the mapped list in order ([] when missing). |
| Catalog.Brand | backend/services/openFoodFactsService.js:28 | The brand is a non-empty first brand tag, else the free-text brands, else "". |
| Catalog.Category | backend/services/openFoodFactsService.js:29-32 | The category is a non-empty first tag. It is "" without tags and for a single empty tag. The joined list is reached only when the first tag is empty, so it is ", " followed by the remaining tags joined. |
| Catalog.FetchProduct | backend/services/openFoodFactsService.js:10-41 | A record comes back exactly when the call succeeded, the body is present, the status is 1 and there is a product object. Otherwise there is no data, never an error. |
| AiAnalysis.ClampScore | backend/services/aiAnalysisService.js:80-83 | The score lies in [0, 10]. A missing or falsy score gives 0, an in-range score is kept, and out-of-range scores go to the nearer bound. |
| AiAnalysis.ClampMonotone | backend/services/aiAnalysisService.js:80-83 | Clamping preserves order. |
| AiAnalysis.Sanitise | backend/services/aiAnalysisService.js:80-90 | The score is clamped, every list field that is not an array becomes [], the summary is kept, and the verdict is not a fallback. |
| AiAnalysis.SanitiseIdempotent | backend/services/aiAnalysisService.js:80-90 | A sanitised answer passes through the sanity pass unchanged. |
| AiAnalysis.AnalyzeProduct | backend/services/aiAnalysisService.js:24-95 | The result is null exactly when a configured client throws. An unconfigured client gives the rule-based fallback, and a configured one the sanitised answer. Any result has a score in [0, 10], and it is a fallback exactly when no client is configured. |
| Fallback.MatchesAny | backend/services/aiAnalysisService.js:119 | A lower-cased name is harmful exactly when it contains one of the known terms. |
| Fallback.HarmfulNames | backend/services/aiAnalysisService.js:105-130 | Reference selection: it keeps only harmful names, every harmful ingredient's name, nothing from outside the ingredients, and is no longer than the list. One ingredient gives its name exactly when it is harmful. |
| Fallback.HarmfulNamesAppend | backend/services/aiAnalysisService.js:117-130 | Selecting from a concatenation is selecting from each part in turn; with the one-ingredient case this fixes the names to ingredient order. |
| Fallback.ScanIngredients | backend/services/aiAnalysisService.js:117-130 | The `forEach` loop appends exactly the reference harmful names, in order, plus one moderate risk entry per name. |
| Fallback.HealthWarnings | backend/services/aiAnalysisService.js:133-143 | At most three warnings, drawn from the three fixed texts in sugar, salt, saturated-fat order. Each is present exactly when its value strictly exceeds 15, 1.5 or 5, and there are none for empty nutriments. |
| Fallback.GradeAdjustment | backend/services/aiAnalysisService.js:152-153 | Grades "a" and "b" add one point, "d" and "e" take one away, and every other grade (including "c" and "") leaves the score alone. |
| Fallback.SafetyScore | backend/services/aiAnalysisService.js:146-155 | The score is an integer in [0, 10]. |
| Fallback.SafetyScoreMatchesFormula | backend/services/aiAnalysisService.js:146-155 | The integer half-unit computation equals clamp(Math.round(7 - 1.5h - 0.5w + g)) evaluated on reals. |
| Fallback.ScoreMonotone | backend/services/aiAnalysisService.js:148-149 | One more harmful match or one more warning never raises the score. |
| Fallback.Summary | backend/services/aiAnalysisService.js:157-171 | The summary starts with "name by brand " and the band sentence and ends with the fixed disclaimer. Without harmful names it is exactly those two parts. With some, the middle is "Contains potentially harmful ingredients: " followed by the first (at most three) names joined by ", " and ". ". |
| Fallback.Mention | backend/services/aiAnalysisService.js:167-169 | The harmful sentence is empty exactly when no name was found. Otherwise it is the fixed lead-in, the first three names (or all, if fewer) joined by ", ", and ". ", so it starts with the lead-in and the first name. |
| Fallback.SummaryNamesAtMostThree | backend/services/aiAnalysisService.js:167-169 | Harmful names after the third do not affect the summary. |
| Fallback.Generate | backend/services/aiAnalysisService.js:101-181 | The verdict is tagged fallback. Its substances are the reference harmful names, with risk entries parallel to them, each moderate and harmful. Its warnings come from the thresholds. Its score is the formula on their counts and the grade, inside [0, 10], and its summary is the summary text for that product, score and harmful list. |
| Fallback.WaterAndAspartame | backend/services/aiAnalysisService.js:117-155 | For ingredients Water and Aspartame, with no threshold crossed and no grade adjustment, the result is harmful ["Aspartame"], no warnings, and score 6. |
| Region.RulesFor | backend/services/regionService.js:5-21 | A code with its own table row gets that row; any other code gets the US row. |
| Region.AnyContains | backend/services/regionService.js:29-31 | `some` holds exactly when some name contains the term. |
| Region.FlaggedTerms | backend/services/regionService.js:27-38 | Reference filter: a term is flagged exactly when it is banned and some lower-cased name contains it lower-cased. The result is no longer than the banned list. |
| Region.CollectViolations | backend/services/regionService.js:27-38 | The `forEach` loop appends exactly one violation per flagged term, in table order. |
| Region.ComputeRegionFlags | backend/services/regionService.js:20-44 | The result names the requested code. Violations are at most the banned count and follow table order. Each names a table term, with reason "Banned or restricted in CODE by REGULATOR". A violation for a term exists exactly when some ingredient name contains it, case-insensitively. |
| Region.UnknownRegionUsesUS | backend/services/regionService.js:20-43 | An unknown code is judged by the US terms, while the result and reasons keep the code and name FDA. |
| Region.NoIngredientsNoViolations | backend/services/regionService.js:22-24 | No ingredients, no violations. |
| Region.FlaggedTermsDistinct | backend/services/regionService.js:27-38 | Distinct banned terms give distinct flagged terms. |
| Region.AtMostOneViolationPerTerm | backend/services/regionService.js:27-38 | A region reports each banned term at most once. |
| Region.BromateInBreadEU | backend/services/regionService.js:10-37 | "Bread (contains Potassium Bromate)" in the EU yields the violation ("potassium bromate", "Banned or restricted in EU by EFSA"). |
| Region.RulesForAsWritten | backend/services/regionService.js:21 | The lookup as written yields no rule set exactly for codes outside the table that name an inherited object property. |
| Region.ComputeRegionFlagsAsWritten | backend/services/regionService.js:20-44 | For every code that is not an inherited property name, the evaluator as written agrees with the corrected one. |
| Region.InheritedRegionThrows | backend/services/regionService.js:21-27 | Code "constructor" makes the evaluator as written throw, where the corrected evaluator applies the US rules. |
| Region.InheritedOutsideTable | backend/services/regionService.js:5-21 | No inherited property name is a code of the rule table, so the evaluator as written and the corrected one part only on codes the table does not list. |
| Pipeline.RegionOf | backend/services/productService.js:99-128 | The flagged region is the context's non-empty string region, else "US". |
| Pipeline.StopIndex | backend/services/productService.js:107-109 | The search stops at the first entry that matches or has no string name; every entry before it has a string name that does not match. |
| Pipeline.FindRisk | backend/services/productService.js:107-109 | `find` reports no match exactly when every entry has a non-matching string name. A found entry is the first match. A TypeError comes from a nameless entry that no match precedes. |
| Pipeline.WellNamedFind | backend/services/productService.js:107-109 | With string names throughout, the search never throws and finds exactly when some entry matches. |
| Pipeline.Enrich | backend/services/productService.js:110-116 | An unmatched ingredient is unchanged. A matched one takes `!!isHarmful`, `riskLevel` or "low", and `description` or "". Name and percentage are always kept. |
| Pipeline.MergeRisks | backend/services/productService.js:106-117 | The merge throws exactly when some ingredient's search throws. Otherwise it keeps count, order, names and percentages and enriches each ingredient from its first match. |
| Pipeline.WellNamedMerges | backend/services/productService.js:106-117 | Risk entries that all have string names never make the merge throw. |
| Pipeline.MatchByTest | backend/services/productService.js:107-109 | For entries built from exactly the names that pass a case-blind test, the search never throws. It finds a harmful, moderate entry exactly when the name passes. |
| Pipeline.MergeByTest | backend/services/productService.js:106-117 | Merging such entries onto fresh ingredients never throws. It marks an ingredient harmful and moderate exactly when its name passes the test, and leaves the others low. |
| Pipeline.FallbackMerge | backend/services/productService.js:106-117 | Merging the fallback's own entries onto fetched ingredients never throws. It marks an ingredient harmful exactly when its name is harmful, with risk "moderate", and leaves the others low. |
| Pipeline.Flagged | backend/services/productService.js:99-129 | The document gains exactly one region key, the requested region, holding that region's violations; nothing else changes. |
| Pipeline.FlaggedAsWritten | backend/services/regionService.js:20-43 | The evaluator as written fails exactly for inherited property names. For any other region, flagging with it gives the same region key and violations as the corrected evaluator the pipeline uses. |
| Pipeline.Finish | backend/services/productService.js:128-132 | Flagging and writing answer with the flagged document. The write (lines 42-70) happens only when the database answers both its lookup of the existing entry and its save; otherwise the store is unchanged and the answer is the bare flagged document with no bookkeeping. A written answer is what the store now holds. |
| Pipeline.Analysed | backend/services/productService.js:87-132 | After a fetch, only a malformed risk entry throws, with nothing written. Otherwise all five stages run and the answer is flagged for the context's region. |
| Pipeline.Missed | backend/services/productService.js:81-85 | After a cache miss, a catalog miss answers "no product" after the fetch and writes nothing. |
| Pipeline.FromCache | backend/services/productService.js:75-132 | The stages run as a prefix of read, fetch, analyse, flag, write. The answer comes from the cache exactly when the read hits, which needs both the read and the save of the bumped count, and then carries source "cache". A built document has the requested barcode and one region key. Exceptions and missing products leave the store unchanged. |
| Pipeline.AnalyzeAndCache | backend/services/productService.js:72-133 | An invalid barcode throws the validator's error before any stage, with the store unchanged. After a valid barcode the only exception is the TypeError. The stages always form a prefix of the fixed order. The store invariant is kept. |
| Pipeline.AnalyserFailureDegrades | backend/services/productService.js:89-102 | When the model call throws, the answer is the raw record with no score and the fixed "AI analysis unavailable" summary. It has no warnings or substances, keeps the catalog's ingredients, and is flagged for the region. |
| Pipeline.UnconfiguredUsesFallback | backend/services/productService.js:88-132 | Without a client the document carries the fallback score and substances and marks exactly the harmful names. |
| Pipeline.UnconfiguredScan | backend/services/productService.js:76-132 | After a cache miss and a catalog hit, an unconfigured analyser yields a product with the fallback score. |
| Pipeline.ExpiredIsRefetched | backend/services/productService.js:23-82 | An expired entry is never served; the run goes on to the catalog. |
| Pipeline.SecondScanHitsCache | backend/services/productService.js:20-65 | After a run that built and stored a document, a second run before expiry, with the database answering both the read and the save, is served from the cache with the same document and a scan count one higher. |
| Pipeline.AnalysedThrowCause | backend/services/productService.js:88-117 | After a fetch, the run throws only when a configured client answered with a risk entry that has no string name. |
| Pipeline.MergeThrowCause | backend/services/productService.js:88-109 | The merge of an analysis throws only on a configured client's answer whose risk entries include one without a string name. The fallback's entries never do. |
| Pipeline.CacheMissFetches | backend/services/productService.js:20-87 | Without a fresh entry that can be both read and re-saved, the run goes on exactly as after a cache miss, to the catalog fetch. |
| Pipeline.TypeErrorCause | backend/services/productService.js:106-109 | After validation, the only exception needs a configured client whose answer for the fetched record has a risk entry without a string name. |
| ScanRoute.BuildContext | backend/routes/products.js:27-31 | The context holds region, userId and the client's keys. The client's region overrides `userRegion || "US"`, the verified uid or null overrides any client `userId`, and other client values pass through. |
| ScanRoute.UserOf | backend/routes/products.js:22-25 | A non-empty token is verified, and the verifier's answer is the user. Without a token there is no user, and the verifier is not consulted. |
| ScanRoute.RegionOfRequest | backend/routes/products.js:27-31 | The flagged region is `userRegion` or "US" unless the client context names a region. A non-empty string there wins; null or "" gives "US". |
| ScanRoute.Filter | backend/routes/products.js:41-44 | The filter keeps only elements that pass, keeps every one that does, and is empty when none pass. |
| ScanRoute.FilterAppend | backend/routes/products.js:41-44 | Filtering commutes with concatenation, which pins the kept elements to input order. |
| ScanRoute.FilterIdempotent | backend/routes/products.js:41-44 | Filtering twice is filtering once. |
| ScanRoute.Summarise | backend/routes/products.js:41-51 | The harmful list is the order-preserving filter, the total is its length, and the high-risk count is the high-risk filter of it, so never above the total. No harmful ingredients give a total of 0. |
| ScanRoute.Respond | backend/routes/products.js:33-71 | The validator's error gives 400 with its message, no product 404, any other exception 500 "Server error", and a product 200 with its summary. |
| ScanRoute.HandleScan | backend/routes/products.js:14-72 | A falsy barcode gives 400 "Barcode is required" with nothing run. Status 400 happens exactly for a falsy or malformed barcode. 404 and 500 leave the store unchanged, and the store invariant is kept. |
| ScanRoute.ServerErrorNeedsMalformedRisk | backend/routes/products.js:65-71 | A 500 needs a valid barcode, a catalog hit and a configured client whose answer has a risk entry without a string name. |
| ScanRoute.UnconfiguredNeverServerError | backend/routes/products.js:65-71 | Without an analyser client the handler never answers 500. |
| ScanRoute.CatalogMissIsNotFound | backend/routes/products.js:33-39 | After a cache miss, a catalog that fails or does not know the barcode gives 404 with the fixed message, and nothing is written. |
| ProductModel.FreshIngredient | backend/services/openFoodFactsService.js:16-23 | The mapper's starting ingredient keeps the given name and percentage and is not harmful, risk "low", with an empty description. With a non-empty name it passes the ingredient schema. |
| ProductModel.ValidIngredient | backend/models/Product.js:3-13 | The ingredient schema: a non-empty name and a risk level from the enum "low", "moderate", "high". |
| ProductModel.ValidProduct | backend/models/Product.js:15-42 | The product schema: a non-empty barcode, every ingredient valid, and a present safety score within [0, 10]. |

## Left out

- HTTP, the OpenAI SDK, Mongoose and Firebase are not modelled. They appear only as the parameters described above. The prompt text and model name are also left out, as is the 12-second catalog timeout (it is one of the catalog failures).
- The rate limiter, the fire-and-forget scan log, `GET /recent-scans`, server start-up and configuration reading are not modelled. They are middleware, logging or wiring, not scan logic.
- Concurrent requests for the same barcode are not modelled. Each call is atomic on the store value.
- `createdAt`/`updatedAt` timestamps are left out: they are bookkeeping that nothing reads.
- The frontend is left out.
- Pipeline.AnalyzeAndCache: the source reads the clock twice, once in the cache read and once in the write; the model uses one `now` for both.
- AiAnalysis.ClampScore: a non-numeric answer score (`Number` giving NaN) is not modelled. Scores are reals, and a falsy score is an absent one.
- Fallback.HealthWarnings: nutriment values are exact reals, not IEEE doubles. A non-numeric nutriment is modelled as absent.
- JsText.Lower: lower-cases ASCII letters only, while `toLowerCase` maps all of Unicode. Matching results can differ for names with non-ASCII capitals.
- Barcode.Validate: the request value is modelled as absent, a string or a non-negative integer. Other JSON values (booleans, objects, arrays, fractional or negative numbers) are not modelled.
- ScanRoute.BuildContext: context values are strings or null. Other JSON values a client might send are not modelled, and neither is a missing request body (it behaves like an absent barcode).
- Catalog.MapProduct: catalog fields (ingredient `text`, `product_name`, the tag lists, the image URLs) are taken to be strings or absent. A catalog value of another JSON type is not modelled; a numeric ingredient text, for one, would make `toLowerCase` throw later in the run.
- Cache.Upsert: the time to live is a whole number of days, while `CACHE_TTL_DAYS` may be any number. Mongoose casting is not modelled. The schema check is the `ValidProduct` predicate: barcode present, ingredient names present, risk level in the enum, and score within [0, 10].
- AiAnalysis.Sanitise: the answer is taken to be a JSON object, and non-string risk names are kept as such. Extra keys a model might add are not modelled.
- A model answer whose risk entry has no string name makes the merge throw (`r.name.toLowerCase()`), and the route answers 500. This is kept as written and is not listed as a finding: nothing in the code says such answers were meant to be tolerated.
- Pipeline.Flagged: flags regions with the corrected evaluator (Region.ComputeRegionFlags), so the TypeError the code as written raises for a region named after an inherited object property (see Findings) is not among its outcomes; Pipeline.FlaggedAsWritten states where the two differ.
- Pipeline.Finish: its outcomes come from the corrected region evaluator, as for Pipeline.Flagged, so the inherited-property TypeError is not among them.
- Pipeline.Analysed: its outcomes come from the corrected region evaluator, as for Pipeline.Flagged, so the inherited-property TypeError is not among them.
- Pipeline.AnalyzeAndCache: its outcomes come from the corrected region evaluator, as for Pipeline.Flagged, so the inherited-property TypeError is not among them.
- Pipeline.AnalyserFailureDegrades: its outcomes come from the corrected region evaluator, as for Pipeline.Flagged, so the inherited-property TypeError is not among them.
- Pipeline.UnconfiguredUsesFallback: its outcomes come from the corrected region evaluator, as for Pipeline.Flagged, so the inherited-property TypeError is not among them.
- Pipeline.UnconfiguredScan: its outcomes come from the corrected region evaluator, as for Pipeline.Flagged, so the inherited-property TypeError is not among them.
- Pipeline.AnalysedThrowCause: its outcomes come from the corrected region evaluator, as for Pipeline.Flagged, so the inherited-property TypeError is not among them.
- Pipeline.TypeErrorCause: its outcomes come from the corrected region evaluator, as for Pipeline.Flagged, so the inherited-property TypeError is not among them.
- ScanRoute.HandleScan: its outcomes come from the corrected region evaluator, as for Pipeline.Flagged, so the 500 that the inherited-property TypeError becomes is not among them.
- ScanRoute.ServerErrorNeedsMalformedRisk: its outcomes come from the corrected region evaluator, as for Pipeline.Flagged, so the 500 that the inherited-property TypeError becomes is not among them.
- ScanRoute.UnconfiguredNeverServerError: its outcomes come from the corrected region evaluator, as for Pipeline.Flagged, so the 500 that the inherited-property TypeError becomes is not among them.

## Findings

| source | as written | input that shows it | evidently intended | confidence | as-written member | corrected member |
|---|---|---|---|---|---|---|
| backend/services/regionService.js:21 | `regionalRules[regionCode] \|\| regionalRules.US` reads a plain object, so a code naming an inherited property (`constructor`, `toString`, `__proto__`, ...) yields a truthy non-rule value, and `rules.bannedIngredients.forEach` throws a TypeError; through `POST /scan` this becomes a 500 | `userRegion: "constructor"` (or `userContext.region`) with any valid, catalogued barcode | every code outside the table is judged by the US rules, as for any other unknown code | not executed | Region.ComputeRegionFlagsAsWritten, Region.InheritedRegionThrows, Pipeline.FlaggedAsWritten | Region.ComputeRegionFlags |

=== FILE: ai_analysis.dfy ===
/**
  The analyser entry point `analyzeProductWithAI`
  (backend/services/aiAnalysisService.js). The language-model call is a
  parameter: an unconfigured client, or a function from the product and the
  request context to either a thrown error or the parsed JSON answer.
 */
module AiAnalysis {
  import opened Wrappers
  import opened ProductModel
  import Fallback

  /**
    The parsed JSON object of a model answer. A field is absent when the answer
    leaves it out or gives a value of the wrong kind (a list that is not an
    array); `safetyScore` is absent when its value is falsy.
   */
  datatype AiReply = AiReply(
    safetyScore: Option<real>,
    harmfulSubstances: Option<seq<string>>,
    healthWarnings: Option<seq<string>>,
    ingredientRisks: Option<seq<RiskEntry>>,
    summary: Option<string>)

  /** The outcome of the remote call: an error (network, quota, malformed JSON) or an answer. */
  datatype AiCall = Threw | Answered(reply: AiReply)

  /** No API key configured, or a client that completes a prompt built from the product and context. */
  datatype AiClient = Unconfigured | Configured(complete: (Fetched, Context) -> AiCall)

  /** `Math.max(0, Math.min(10, Number(score || 0)))`: the answer's score forced into [0, 10]. */
  function ClampScore(score: Option<real>): (r: real)
    ensures ValidScore(r)
    ensures score.Some? && ValidScore(score.value) ==> r == score.value
    ensures score.Some? && score.value > 10.0 ==> r == 10.0
    ensures score.None? || score.value < 0.0 ==> r == 0.0
  {
    var x := score.GetOr(0.0);
    if x > 10.0 then 10.0 else if x < 0.0 then 0.0 else x
  }

  /** A list field that is not an array becomes the empty list. */
  function ListOrEmpty<T>(field: Option<seq<T>>): (r: seq<T>)
    ensures field.Some? ==> r == field.value
    ensures field.None? ==> r == []
  {
    match field
    case Some(xs) => xs
    case None => []
  }

  /**
    The sanity pass over a model answer: the score is clamped, every list field
    that is not an array is replaced by the empty list, and the rest is kept.
   */
  function Sanitise(reply: AiReply): (v: Verdict)
    ensures ValidScore(v.safetyScore)
    ensures v.safetyScore == ClampScore(reply.safetyScore)
    ensures v.harmfulSubstances == ListOrEmpty(reply.harmfulSubstances)
    ensures v.healthWarnings == ListOrEmpty(reply.healthWarnings)
    ensures v.ingredientRisks == ListOrEmpty(reply.ingredientRisks)
    ensures v.summary == reply.summary
    ensures !v.fallbackMode
  {
    Verdict(
      ClampScore(reply.safetyScore),
      ListOrEmpty(reply.harmfulSubstances),
      ListOrEmpty(reply.healthWarnings),
      ListOrEmpty(reply.ingredientRisks),
      reply.summary,
      false)
  }

  /**
    The analyser: without a client it returns the rule-based fallback; with one
    it returns the sanitised answer, or nothing when the call fails.
   */
  function AnalyzeProduct(client: AiClient, p: Fetched, ctx: Context): (r: Option<Verdict>)
    ensures r.None? <==> client.Configured? && client.complete(p, ctx).Threw?
    ensures client.Unconfigured? ==> r == Some(Fallback.Generate(p))
    ensures client.Configured? && r.Some? ==> r.value == Sanitise(client.complete(p, ctx).reply)
    ensures r.Some? ==> ValidScore(r.value.safetyScore)
    ensures r.Some? ==> (r.value.fallbackMode <==> client.Unconfigured?)
  {
    match client
    case Unconfigured => Some(Fallback.Generate(p))
    case Configured(complete) =>
      match complete(p, ctx)
      case Threw => None
      case Answered(reply) => Some(Sanitise(reply))
  }

  /** Sanitising is a fixed point: a verdict read back as an answer sanitises to itself. */
  lemma SanitiseIdempotent(reply: AiReply)
    ensures var v := Sanitise(reply);
            Sanitise(AiReply(Some(v.safetyScore), Some(v.harmfulSubstances), Some(v.healthWarnings),
                             Some(v.ingredientRisks), v.summary)) == v
  {
  }

  /** A score outside the range is pulled to the nearer bound, so the clamp is monotone. */
  lemma ClampMonotone(x: real, y: real)
    requires x <= y
    ensures ClampScore(Some(x)) <= ClampScore(Some(y))
  {
  }
}

=== FILE: barcode.dfy ===
/**
  Barcode validation (`validateBarcode`, backend/services/productService.js):
  the request value is coerced to a string, trimmed, and must then be exactly
  8, 12 or 13 ASCII digits (the EAN-8, UPC-A and EAN-13 lengths). Only the
  length and the characters are checked; there is no check-digit test.
 */
module Barcode {
  import opened Wrappers
  import opened JsText

  /** The `barcode` field of a request body: missing, a JSON string, or a JSON non-negative integer. */
  datatype BarcodeInput = Absent | Text(s: string) | Number(n: nat)

  /** JavaScript truthiness of the barcode value. */
  predicate IsTruthy(b: BarcodeInput) {
    match b
    case Absent => false
    case Text(s) => s != ""
    case Number(n) => n != 0
  }

  predicate IsDigit(c: char) {
    '0' <= c <= '9'
  }

  predicate AllDigits(s: string) {
    forall i :: 0 <= i < |s| ==> IsDigit(s[i])
  }

  /** The regular expression `^(\d{8}|\d{12}|\d{13})$`. */
  predicate IsBarcodeFormat(s: string) {
    (|s| == 8 || |s| == 12 || |s| == 13) && AllDigits(s)
  }

  function DigitChar(d: nat): (c: char)
    requires d < 10
    ensures IsDigit(c)
  {
    ('0' as int + d) as char
  }

  function DigitValue(c: char): (d: nat)
    requires IsDigit(c)
    ensures d < 10 && DigitChar(d) == c
  {
    c as int - '0' as int
  }

  /** The number a digit string denotes, read most significant digit first. */
  function DigitsValue(s: string): nat
    requires AllDigits(s)
    decreases |s|
  {
    if s == [] then 0 else 10 * DigitsValue(s[..|s| - 1]) + DigitValue(s[|s| - 1])
  }

  /** The decimal rendering `String(n)` of a non-negative integer: digits only, no leading zero, denoting `n`. */
  function Decimal(n: nat): (r: string)
    ensures |r| >= 1 && AllDigits(r)
    ensures |r| > 1 ==> r[0] != '0'
    ensures DigitsValue(r) == n
  {
    if n < 10 then [DigitChar(n)]
    else
      var r := Decimal(n / 10) + [DigitChar(n % 10)];
      assert r[..|r| - 1] == Decimal(n / 10);
      r
  }

  /** A digit string without a leading zero denotes at least 10 once it has two digits or more. */
  lemma {:induction false} LeadingDigitValue(s: string)
    requires AllDigits(s) && |s| >= 1 && s[0] != '0'
    ensures |s| > 1 ==> DigitsValue(s) >= 10
    ensures DigitsValue(s) >= 1
    decreases |s|
  {
    if |s| > 1 {
      var p := s[..|s| - 1];
      assert p[0] == s[0];
      LeadingDigitValue(p);
    } else {
      assert s[..0] == [];
    }
  }

  /**
    Rendering is the inverse of reading: a digit string with no leading zero is
    exactly the rendering of the number it denotes, so `String(n)` is the only
    such string for `n`.
   */
  lemma {:induction false} DecimalOfDigits(s: string)
    requires AllDigits(s) && |s| >= 1 && (|s| > 1 ==> s[0] != '0')
    ensures Decimal(DigitsValue(s)) == s
    decreases |s|
  {
    var last := s[|s| - 1];
    var p := s[..|s| - 1];
    if |s| == 1 {
      assert p == [];
      assert Decimal(DigitsValue(s)) == [DigitChar(DigitValue(last))];
    } else {
      assert p[0] == s[0];
      LeadingDigitValue(s);
      LeadingDigitValue(p);
      DecimalOfDigits(p);
      var n := DigitsValue(s);
      assert n / 10 == DigitsValue(p) && n % 10 == DigitValue(last);
      assert s == p + [last];
    }
  }

  /** `String(barcode || "")`: a falsy value becomes "", a string stays as it is, a number becomes its decimal digits. */
  function AsString(b: BarcodeInput): (r: string)
    ensures !IsTruthy(b) ==> r == ""
    ensures b.Text? ==> r == b.s
    ensures b.Number? && b.n != 0 ==> AllDigits(r) && DigitsValue(r) == b.n
  {
    match b
    case Absent => ""
    case Text(s) => s
    case Number(n) => if n == 0 then "" else Decimal(n)
  }

  const InvalidBarcodeMessage := "Invalid barcode format. Expect EAN-8, UPC-A or EAN-13."

  /** The outcome of validation: the normalised barcode, or the error carrying code INVALID_BARCODE. */
  datatype Checked = Valid(barcode: string) | Invalid(message: string)

  lemma DigitsAreTrimmed(d: string)
    requires AllDigits(d)
    ensures IsTrimmed(d)
  {
    if d != [] {
      assert IsDigit(d[0]) && IsDigit(d[|d| - 1]);
    }
  }

  /** A barcode-shaped string padded with whitespace trims to that barcode. */
  lemma TrimFindsPaddedBarcode(s: string, d: string, i: int)
    requires PaddedAt(s, d, i) && IsBarcodeFormat(d)
    ensures Trim(s) == d
  {
    assert s == s[..i] + d + s[i + |d|..];
    DigitsAreTrimmed(d);
    TrimOfPadded(s[..i], d, s[i + |d|..]);
  }

  /**
    `validateBarcode`: it succeeds exactly when the coerced input is a barcode-shaped
    string padded with whitespace, and then returns that barcode; otherwise it fails
    with the fixed message.
   */
  function Validate(b: BarcodeInput): (r: Checked)
    ensures r.Valid? ==> IsBarcodeFormat(r.barcode)
    ensures r.Valid? ==> exists i :: PaddedAt(AsString(b), r.barcode, i)
    ensures r.Invalid? ==> r.message == InvalidBarcodeMessage
    ensures r.Invalid? ==> forall d, i :: PaddedAt(AsString(b), d, i) ==> !IsBarcodeFormat(d)
  {
    var s := AsString(b);
    var t := Trim(s);
    if IsBarcodeFormat(t) then
      Valid(t)
    else
      assert forall d, i :: PaddedAt(s, d, i) ==> !IsBarcodeFormat(d) by {
        forall d, i | PaddedAt(s, d, i) && IsBarcodeFormat(d) ensures false {
          TrimFindsPaddedBarcode(s, d, i);
        }
      }
      Invalid(InvalidBarcodeMessage)
  }

  /** Validating the output of a successful validation returns the same barcode. */
  lemma ValidateIdempotent(b: BarcodeInput)
    ensures Validate(b).Valid? ==> Validate(Text(Validate(b).barcode)) == Validate(b)
  {
    if Validate(b).Valid? {
      var d := Validate(b).barcode;
      DigitsAreTrimmed(d);
      TrimOfTrimmed(d);
    }
  }

  /** `10^k`, the helper DecimalLength measures digit counts against. */
  function Pow10(k: nat): (r: nat)
    ensures r >= 1
  {
    if k == 0 then 1 else 10 * Pow10(k - 1)
  }

  /** `String(n)` has at most `k` digits exactly when `n < 10^k`. */
  lemma {:induction false} DecimalLength(n: nat, k: nat)
    requires k >= 1
    ensures |Decimal(n)| <= k <==> n < Pow10(k)
    decreases n
  {
    if n >= 10 {
      if k == 1 {
        assert Pow10(1) == 10;
      } else {
        DecimalLength(n / 10, k - 1);
      }
    } else if k > 1 {
      PowAtLeastTen(k);
    }
  }

  lemma {:induction false} PowAtLeastTen(k: nat)
    requires k >= 1
    ensures Pow10(k) >= 10
  {
    if k > 1 {
      PowAtLeastTen(k - 1);
    }
  }

  lemma Pow10Values()
    ensures Pow10(7) == 10_000_000 && Pow10(8) == 100_000_000
    ensures Pow10(11) == 100_000_000_000 && Pow10(12) == 1_000_000_000_000
    ensures Pow10(13) == 10_000_000_000_000
  {
    assert Pow10(4) == 10_000;
    assert Pow10(8) == 100_000_000;
    assert Pow10(12) == 1_000_000_000_000;
  }

  /** A JSON number renders to a digit string of its own length, which trims to itself. */
  lemma NumberValidation(n: nat)
    requires n != 0
    ensures Validate(Number(n)) == if IsBarcodeFormat(Decimal(n)) then Valid(Decimal(n)) else Invalid(InvalidBarcodeMessage)
  {
    DigitsAreTrimmed(Decimal(n));
    TrimOfTrimmed(Decimal(n));
  }

  /**
    A barcode sent as a JSON number is rendered without leading zeros, so it is
    accepted exactly when it has 8, 12 or 13 significant digits.
   */
  lemma NumericBarcode(n: nat)
    ensures Validate(Number(n)).Valid? <==>
              (10_000_000 <= n < 100_000_000 || 100_000_000_000 <= n < 10_000_000_000_000)
    ensures Validate(Number(n)).Valid? ==> Validate(Number(n)).barcode == Decimal(n)
  {
    if n != 0 {
      NumberValidation(n);
      Pow10Values();
      DecimalLength(n, 7);
      DecimalLength(n, 8);
      DecimalLength(n, 11);
      DecimalLength(n, 12);
      DecimalLength(n, 13);
    }
  }
}

=== FILE: cache.dfy ===
/**
  The product cache of backend/services/productService.js: `getProductFromCache`
  and `cacheProduct`. The collection is a map from barcode to stored document;
  dates are integer milliseconds read from one clock value `now`. Whether the
  database answers is a boolean parameter: a failed read is a miss, a failed
  write (including a document the schema refuses) hands the document back
  without bookkeeping fields and leaves the collection as it was.
 */
module Cache {
  import opened Wrappers
  import opened ProductModel

  const MsPerDay: int := 24 * 60 * 60 * 1000
  const DefaultTtlDays: nat := 7

  datatype Stored = Stored(doc: Product, meta: Meta)

  type Store = map<string, Stored>

  /**
    What every stored document satisfies: it sits under its own barcode (so one
    document per barcode), it passes the schema, its source is "live", it was
    counted at least once and it does not expire before it was cached.
   */
  predicate StoreInvariant(store: Store) {
    forall k :: k in store ==>
      && store[k].doc.barcode == k
      && ValidProduct(store[k].doc)
      && store[k].meta.source == LiveSource
      && store[k].meta.scanCount >= 1
      && store[k].meta.cachedAt <= store[k].meta.cacheExpiry
  }

  /** The cache entry for `barcode` is present and strictly unexpired at `now`. */
  predicate Fresh(store: Store, barcode: string, now: int) {
    barcode in store && store[barcode].meta.cacheExpiry > now
  }

  datatype ReadResult = ReadResult(store: Store, hit: Option<Record>)

  /** A stored entry after one more scan at `now`. */
  function Rescanned(s: Stored, now: int): (t: Stored)
    ensures t.doc == s.doc
    ensures t.meta.scanCount == s.meta.scanCount + 1 && t.meta.lastScannedAt == now
    ensures t.meta.cachedAt == s.meta.cachedAt && t.meta.cacheExpiry == s.meta.cacheExpiry
    ensures t.meta.source == s.meta.source
  {
    Stored(s.doc, s.meta.(scanCount := s.meta.scanCount + 1, lastScannedAt := now))
  }

  /**
    `getProductFromCache`: a hit needs a strictly unexpired entry, a working
    `findOne` and a working `save` of the bumped count, all inside one `try`.
    It bumps the stored scan count, stamps the scan time, and hands back a copy
    marked as coming from the cache. Anything else, a failed save included, is
    a miss that changes nothing.
   */
  function Lookup(store: Store, barcode: string, now: int, readOk: bool, saveOk: bool): (r: ReadResult)
    ensures r.hit.Some? <==> readOk && saveOk && Fresh(store, barcode, now)
    ensures r.hit.None? ==> r.store == store
    ensures r.hit.Some? ==>
              && r.store == store[barcode := Rescanned(store[barcode], now)]
              && r.hit.value.doc == store[barcode].doc
              && r.hit.value.meta == Some(r.store[barcode].meta.(source := CacheSource))
    ensures r.store.Keys == store.Keys
    ensures StoreInvariant(store) ==> StoreInvariant(r.store)
  {
    if readOk && saveOk && Fresh(store, barcode, now) then
      var updated := Rescanned(store[barcode], now);
      ReadResult(store[barcode := updated], Some(Record(updated.doc, Some(updated.meta.(source := CacheSource)))))
    else
      ReadResult(store, None)
  }

  datatype WriteResult = WriteResult(store: Store, saved: Record)

  /** The bookkeeping of a write at `now`: refresh the dates, keep an existing entry's counters and source. */
  function WriteMeta(previous: Option<Meta>, now: int, ttlDays: nat): (m: Meta)
    ensures m.cachedAt == now && m.cacheExpiry == now + ttlDays * MsPerDay
    ensures previous.Some? ==>
              m.scanCount == previous.value.scanCount
              && m.lastScannedAt == previous.value.lastScannedAt
              && m.source == previous.value.source
    ensures previous.None? ==> m.scanCount == 1 && m.lastScannedAt == now && m.source == LiveSource
  {
    var expiry := now + ttlDays * MsPerDay;
    match previous
    case Some(prior) => prior.(cachedAt := now, cacheExpiry := expiry)
    case None => Meta(now, expiry, 1, now, LiveSource)
  }

  /**
    `cacheProduct`: writes the document under its barcode with fresh dates. An
    existing entry keeps its scan count, last scan time and source; a new one
    starts at one scan. Other entries are untouched. `available` says whether
    the database answers both the lookup of the existing entry and the save; a
    failed lookup or save, or a refused write, returns the document as given.
   */
  function Upsert(store: Store, doc: Product, now: int, ttlDays: nat, available: bool): (r: WriteResult)
    ensures !available || !ValidProduct(doc) ==> r.store == store && r.saved == Record(doc, None)
    ensures available && ValidProduct(doc) ==>
              && r.store.Keys == store.Keys + {doc.barcode}
              && (forall k :: k in store && k != doc.barcode ==> r.store[k] == store[k])
              && r.store[doc.barcode].doc == doc
              && r.store[doc.barcode].meta.cachedAt == now
              && r.store[doc.barcode].meta.cacheExpiry == now + ttlDays * MsPerDay
              && (doc.barcode in store ==>
                    r.store[doc.barcode].meta.scanCount == store[doc.barcode].meta.scanCount
                    && r.store[doc.barcode].meta.lastScannedAt == store[doc.barcode].meta.lastScannedAt)
              && (doc.barcode !in store ==>
                    r.store[doc.barcode].meta.scanCount == 1 && r.store[doc.barcode].meta.lastScannedAt == now)
              && r.saved == Record(doc, Some(r.store[doc.barcode].meta))
    ensures r.saved.doc == doc
    ensures StoreInvariant(store) ==> StoreInvariant(r.store)
  {
    if available && ValidProduct(doc) then
      var previous := if doc.barcode in store then Some(store[doc.barcode].meta) else None;
      var meta := WriteMeta(previous, now, ttlDays);
      WriteResult(store[doc.barcode := Stored(doc, meta)], Record(doc, Some(meta)))
    else
      WriteResult(store, Record(doc, None))
  }

  /**
    Round trip: a document written at `t1` is found by any lookup before its
    time to live runs out, with the scan count one above what the write left.
   */
  lemma WriteThenRead(store: Store, doc: Product, t1: int, ttlDays: nat, t2: int)
    requires ValidProduct(doc)
    requires t2 < t1 + ttlDays * MsPerDay
    ensures var w := Upsert(store, doc, t1, ttlDays, true);
            var r := Lookup(w.store, doc.barcode, t2, true, true);
            && r.hit.Some?
            && r.hit.value.doc == doc
            && r.hit.value.meta.value.scanCount == w.saved.meta.value.scanCount + 1
            && r.hit.value.meta.value.lastScannedAt == t2
            && r.hit.value.meta.value.source == CacheSource
  {
  }

  /** A lookup at or after the expiry instant misses, however often the entry was scanned. */
  lemma ExpiredIsMiss(store: Store, barcode: string, now: int, readOk: bool, saveOk: bool)
    requires barcode in store && store[barcode].meta.cacheExpiry <= now
    ensures Lookup(store, barcode, now, readOk, saveOk) == ReadResult(store, None)
  {
  }

  /** Rewriting a cached document never resets its scan count. */
  lemma RewriteKeepsCount(store: Store, doc: Product, now: int, ttlDays: nat)
    requires ValidProduct(doc) && doc.barcode in store
    ensures Upsert(store, doc, now, ttlDays, true).saved.meta.value.scanCount == store[doc.barcode].meta.scanCount
  {
  }
}

=== FILE: catalog.dfy ===
/**
  The catalog response mapping inside `fetchProductFromOpenFoodFacts`
  (backend/services/openFoodFactsService.js). The HTTP GET itself is a
  parameter: its outcome is either a transport failure or a response body.
  Every failure ends in "no data"; nothing propagates to the caller.
 */
module Catalog {
  import opened Wrappers
  import opened JsText
  import opened ProductModel

  /** One entry of the catalog's `ingredients` array. */
  datatype CatalogIngredient = CatalogIngredient(
    text: Option<string>,
    percentEstimate: Option<real>,
    percent: Option<real>)

  /** The fields of the catalog's `product` object that the mapping reads. */
  datatype CatalogProduct = CatalogProduct(
    productName: Option<string>,
    genericName: Option<string>,
    brandsTags: Option<seq<string>>,
    brands: Option<string>,
    categoriesTags: Option<seq<string>>,
    imageFrontSmallUrl: Option<string>,
    imageThumbUrl: Option<string>,
    imageUrl: Option<string>,
    nutriscoreGrade: Option<string>,
    nutriments: Option<map<string, real>>,
    ingredients: Option<seq<CatalogIngredient>>)

  /** The response body: `status` is 1 when the catalog knows the barcode. */
  datatype CatalogBody = CatalogBody(status: Option<int>, product: Option<CatalogProduct>)

  /** What the HTTP call yields: a thrown error (timeout, network, HTTP error) or a response whose body may be empty. */
  datatype HttpOutcome = Failed | Response(data: Option<CatalogBody>)

  const UnknownIngredient := "Unknown ingredient"
  const UnknownProduct := "Unknown product"

  /**
    One catalog ingredient as an internal ingredient: the name falls back to
    "Unknown ingredient", the percentage to the estimate, then the declared
    percent (zero counting as missing), and the analysis fields take their defaults.
   */
  function MapIngredient(c: CatalogIngredient): (i: Ingredient)
    ensures ValidIngredient(i)
    ensures i == FreshIngredient(i.name, i.percentage)
    ensures c.text.Some? && c.text.value != "" ==> i.name == c.text.value
    ensures c.text.None? || c.text.value == "" ==> i.name == UnknownIngredient
    ensures i.percentage.Some? ==> i.percentage.value != 0.0
    ensures i.percentage.Some? ==> i.percentage == c.percentEstimate || i.percentage == c.percent
    ensures c.percentEstimate.Some? && c.percentEstimate.value != 0.0 ==> i.percentage == c.percentEstimate
    ensures (c.percentEstimate.None? || c.percentEstimate.value == 0.0) && c.percent.Some? && c.percent.value != 0.0
            ==> i.percentage == c.percent
    ensures (c.percentEstimate.None? || c.percentEstimate.value == 0.0) && (c.percent.None? || c.percent.value == 0.0)
            ==> i.percentage.None?
  {
    FreshIngredient(Or(c.text, UnknownIngredient), NumOr(c.percentEstimate, NumOr(c.percent, None)))
  }

  /** `(p.ingredients || []).map(...)`: same length and order, every entry valid and carrying the defaults. */
  function MapIngredients(cs: seq<CatalogIngredient>): (r: seq<Ingredient>)
    ensures |r| == |cs|
    ensures forall k :: 0 <= k < |cs| ==> r[k] == MapIngredient(cs[k])
    ensures AllValidIngredients(r)
    ensures forall k :: 0 <= k < |r| ==> !r[k].isHarmful && r[k].riskLevel == RiskLow && r[k].description == ""
  {
    seq(|cs|, k requires 0 <= k < |cs| => MapIngredient(cs[k]))
  }

  /** `tags && tags[0]`: the first tag when the list exists and is non-empty. */
  function FirstTag(tags: Option<seq<string>>): Option<string> {
    if tags.Some? && |tags.value| > 0 then Some(tags.value[0]) else None
  }

  /** `tags && tags.join(", ")`. */
  function JoinedTags(tags: Option<seq<string>>): Option<string> {
    if tags.Some? then Some(Join(tags.value, ", ")) else None
  }

  /** The brand: a non-empty first brand tag, else the free-text brands, else "". */
  function Brand(p: CatalogProduct): (b: string)
    ensures p.brandsTags.Some? && |p.brandsTags.value| > 0 && p.brandsTags.value[0] != ""
            ==> b == p.brandsTags.value[0]
    ensures (p.brandsTags.None? || |p.brandsTags.value| == 0 || p.brandsTags.value[0] == "")
            ==> b == Or(p.brands, "")
  {
    Or(OrMaybe(FirstTag(p.brandsTags), p.brands), "")
  }

  /**
    The category: a non-empty first category tag, else all tags joined, else "".
    The joined list is reached only when the first tag is empty, so it starts
    with the separator.
   */
  function Category(p: CatalogProduct): (c: string)
    ensures p.categoriesTags.Some? && |p.categoriesTags.value| > 0 && p.categoriesTags.value[0] != ""
            ==> c == p.categoriesTags.value[0]
    ensures p.categoriesTags.None? || p.categoriesTags.value == [] ==> c == ""
    ensures p.categoriesTags == Some([""]) ==> c == ""
    ensures p.categoriesTags.Some? && |p.categoriesTags.value| >= 2 && p.categoriesTags.value[0] == ""
            ==> c == ", " + Join(p.categoriesTags.value[1..], ", ")
  {
    if p.categoriesTags.Some? && |p.categoriesTags.value| >= 2 && p.categoriesTags.value[0] == "" then
      var joined := Join(p.categoriesTags.value, ", ");
      assert joined == "" + ", " + Join(p.categoriesTags.value[1..], ", ");
      assert |joined| >= 2;
      Or(OrMaybe(FirstTag(p.categoriesTags), JoinedTags(p.categoriesTags)), "")
    else
      Or(OrMaybe(FirstTag(p.categoriesTags), JoinedTags(p.categoriesTags)), "")
  }

  /**
    The internal record built from a catalog product. The barcode is the one
    requested, names and texts fall back as described, and the ingredient
    list keeps the catalog's length and order.
   */
  function MapProduct(barcode: string, p: CatalogProduct): (r: Fetched)
    ensures r.barcode == barcode
    ensures r.productName != ""
    ensures r.productName == Or(p.productName, Or(p.genericName, UnknownProduct))
    ensures p.ingredients.None? ==> r.ingredients == []
    ensures p.ingredients.Some? ==> |r.ingredients| == |p.ingredients.value|
    ensures p.ingredients.Some? ==> forall k :: 0 <= k < |r.ingredients| ==>
              r.ingredients[k] == MapIngredient(p.ingredients.value[k])
    ensures AllValidIngredients(r.ingredients)
    ensures r.brand == Brand(p) && r.category == Category(p)
    ensures p.imageFrontSmallUrl.Some? && p.imageFrontSmallUrl.value != "" ==> r.imageUrl == p.imageFrontSmallUrl
    ensures (p.imageFrontSmallUrl.None? || p.imageFrontSmallUrl.value == "")
            ==> p.imageThumbUrl.Some? && p.imageThumbUrl.value != "" ==> r.imageUrl == p.imageThumbUrl
    ensures (p.imageFrontSmallUrl.None? || p.imageFrontSmallUrl.value == "")
            ==> (p.imageThumbUrl.None? || p.imageThumbUrl.value == "") ==> r.imageUrl == p.imageUrl
    ensures p.nutriscoreGrade.Some? && p.nutriscoreGrade.value != "" ==> r.nutriScore == p.nutriscoreGrade.value
    ensures p.nutriscoreGrade.None? || p.nutriscoreGrade.value == "" ==> r.nutriScore == ""
    ensures p.nutriments.None? ==> r.nutriments == map[]
    ensures p.nutriments.Some? ==> r.nutriments == p.nutriments.value
  {
    Fetched(
      barcode,
      Or(p.productName, Or(p.genericName, UnknownProduct)),
      Brand(p),
      Category(p),
      OrMaybe(OrMaybe(p.imageFrontSmallUrl, p.imageThumbUrl), p.imageUrl),
      Or(p.nutriscoreGrade, ""),
      p.nutriments.GetOr(map[]),
      MapIngredients(p.ingredients.GetOr([])))
  }

  /** The body is usable only when present, with status exactly 1 and a product object. */
  predicate IsFound(outcome: HttpOutcome) {
    && outcome.Response?
    && outcome.data.Some?
    && outcome.data.value.status == Some(1)
    && outcome.data.value.product.Some?
  }

  /**
    `fetchProductFromOpenFoodFacts` after the HTTP call: a transport error, a
    missing body, a status other than 1 or a missing product object all give
    "no data"; otherwise the mapped record.
   */
  function FetchProduct(barcode: string, outcome: HttpOutcome): (r: Option<Fetched>)
    ensures r.Some? <==> IsFound(outcome)
    ensures r.Some? ==> r.value == MapProduct(barcode, outcome.data.value.product.value)
    ensures r.Some? ==> r.value.barcode == barcode && AllValidIngredients(r.value.ingredients)
    ensures r.Some? ==> forall k :: 0 <= k < |r.value.ingredients| ==>
              !r.value.ingredients[k].isHarmful && r.value.ingredients[k].riskLevel == RiskLow
  {
    if IsFound(outcome) then Some(MapProduct(barcode, outcome.data.value.product.value)) else None
  }
}

=== FILE: fallback.dfy ===
/**
  The rule-based analyser used when no AI client is configured
  (`generateFallbackAnalysis`, backend/services/aiAnalysisService.js): substring
  matching of ingredient names against a fixed list, three nutrient thresholds,
  a score computed in half points, and a templated summary.
 */
module Fallback {
  import opened Wrappers
  import opened JsText
  import opened ProductModel

  /** The controversial substances the analyser looks for, all lower case. */
  const KnownHarmful: seq<string> := [
    "palm oil", "high fructose corn syrup", "artificial sweetener",
    "aspartame", "msg", "monosodium glutamate", "trans fat",
    "sodium benzoate", "artificial color", "red 40", "yellow 5",
    "bha", "bht", "sodium nitrite", "potassium bromate"
  ]

  const RiskAdvice := "This ingredient may have health concerns. Consider consulting with a healthcare professional."

  const SugarWarning := "High sugar content (>15g per 100g)"
  const SaltWarning := "High salt content (>1.5g per 100g)"
  const SaturatedFatWarning := "High saturated fat (>5g per 100g)"

  const Disclaimer := "Note: This is a basic automated analysis. For detailed health advice, consult a healthcare professional."

  /** `terms.some((t) => lowerName.includes(t))`. */
  function MatchesAny(lowerName: string, terms: seq<string>): (r: bool)
    ensures r <==> exists k :: 0 <= k < |terms| && Contains(lowerName, terms[k])
  {
    if |terms| == 0 then false
    else if Contains(lowerName, terms[0]) then true
    else
      var r := MatchesAny(lowerName, terms[1..]);
      assert forall k :: 1 <= k < |terms| ==> terms[1..][k - 1] == terms[k];
      r
  }

  /** An ingredient name is harmful when its lower-cased form contains a known term. */
  predicate IsHarmfulName(name: string) {
    MatchesAny(Lower(name), KnownHarmful)
  }

  /** The risk entry the analyser records for a harmful ingredient. */
  function ModerateRisk(name: string): RiskEntry {
    RiskEntry(Some(name), Some(RiskModerate), Some(RiskAdvice), true)
  }

  /** Reference definition: the names of the harmful ingredients, in ingredient order. */
  function HarmfulNames(ings: seq<Ingredient>): (r: seq<string>)
    ensures |r| <= |ings|
    ensures forall x :: x in r ==> IsHarmfulName(x)
    ensures forall i :: 0 <= i < |ings| && IsHarmfulName(ings[i].name) ==> ings[i].name in r
    ensures forall x :: x in r ==> exists i :: 0 <= i < |ings| && ings[i].name == x
    ensures |ings| == 1 ==> r == (if IsHarmfulName(ings[0].name) then [ings[0].name] else [])
  {
    if |ings| == 0 then []
    else
      var rest := HarmfulNames(ings[1..]);
      assert forall i :: 1 <= i < |ings| ==> ings[1..][i - 1] == ings[i];
      if IsHarmfulName(ings[0].name) then [ings[0].name] + rest else rest
  }

  /**
    Selecting from a concatenation selects from each part in turn. With the
    one-ingredient case this fixes the order: the harmful names appear in the
    order of their ingredients.
   */
  lemma {:induction false} HarmfulNamesAppend(a: seq<Ingredient>, b: seq<Ingredient>)
    ensures HarmfulNames(a + b) == HarmfulNames(a) + HarmfulNames(b)
    decreases |a|
  {
    if |a| == 0 {
      assert a + b == b;
    } else {
      assert (a + b)[0] == a[0];
      assert (a + b)[1..] == a[1..] + b;
      HarmfulNamesAppend(a[1..], b);
    }
  }

  function RisksFor(names: seq<string>): (r: seq<RiskEntry>)
    ensures |r| == |names|
    ensures forall k :: 0 <= k < |names| ==> r[k] == ModerateRisk(names[k])
  {
    seq(|names|, k requires 0 <= k < |names| => ModerateRisk(names[k]))
  }

  lemma RisksForCons(name: string, rest: seq<string>)
    ensures RisksFor([name] + rest) == [ModerateRisk(name)] + RisksFor(rest)
  {
  }

  /** Regrouping a concatenation; the ingredient loop's proof uses it to move one pushed element across. */
  lemma AppendAssoc<T>(a: seq<T>, b: seq<T>, c: seq<T>)
    ensures a + b + c == a + (b + c)
  {
  }

  /** The two lists the ingredient loop fills. */
  datatype Findings = Findings(harmfulSubstances: seq<string>, ingredientRisks: seq<RiskEntry>)

  /** One iteration of `ingredients.forEach`: push the name and its risk entry when the name is harmful. */
  function Visit(acc: Findings, ing: Ingredient): Findings {
    if IsHarmfulName(ing.name) then
      Findings(acc.harmfulSubstances + [ing.name], acc.ingredientRisks + [ModerateRisk(ing.name)])
    else
      acc
  }

  /**
    The ingredient loop, left to right: it appends to the accumulator exactly the
    harmful names of the reference definition and one moderate risk entry per name.
   */
  function ScanIngredients(ings: seq<Ingredient>, acc: Findings): (r: Findings)
    ensures r.harmfulSubstances == acc.harmfulSubstances + HarmfulNames(ings)
    ensures r.ingredientRisks == acc.ingredientRisks + RisksFor(HarmfulNames(ings))
    decreases |ings|
  {
    if |ings| == 0 then acc
    else
      var name := ings[0].name;
      var r := ScanIngredients(ings[1..], Visit(acc, ings[0]));
      var rest := HarmfulNames(ings[1..]);
      RisksForCons(name, rest);
      AppendAssoc(acc.harmfulSubstances, [name], rest);
      AppendAssoc(acc.ingredientRisks, [ModerateRisk(name)], RisksFor(rest));
      r
  }

  /** `nutriments[key] > limit`; a missing value compares false. */
  predicate Exceeds(nutriments: map<string, real>, key: string, limit: real) {
    key in nutriments && nutriments[key] > limit
  }

  predicate HighSugar(n: map<string, real>) { Exceeds(n, "sugars_100g", 15.0) }
  predicate HighSalt(n: map<string, real>) { Exceeds(n, "salt_100g", 1.5) }
  predicate HighSaturatedFat(n: map<string, real>) { Exceeds(n, "saturated_fat_100g", 5.0) }

  /** Position of a warning in the fixed order sugar, salt, saturated fat. */
  function WarningRank(w: string): int {
    if w == SugarWarning then 0 else if w == SaltWarning then 1 else 2
  }

  /**
    The nutrient warnings: an ordered selection of the three fixed texts, each
    present exactly when its value strictly exceeds its threshold.
   */
  function HealthWarnings(n: map<string, real>): (r: seq<string>)
    ensures |r| <= 3
    ensures forall w :: w in r ==> w in {SugarWarning, SaltWarning, SaturatedFatWarning}
    ensures forall i, j :: 0 <= i < j < |r| ==> WarningRank(r[i]) < WarningRank(r[j])
    ensures SugarWarning in r <==> HighSugar(n)
    ensures SaltWarning in r <==> HighSalt(n)
    ensures SaturatedFatWarning in r <==> HighSaturatedFat(n)
    ensures n == map[] ==> r == []
  {
    (if HighSugar(n) then [SugarWarning] else [])
    + (if HighSalt(n) then [SaltWarning] else [])
    + (if HighSaturatedFat(n) then [SaturatedFatWarning] else [])
  }

  /**
    The nutrition-grade adjustment: +1 for exactly "a" or "b", -1 for exactly
    "d" or "e", and nothing for any other grade, the missing one ("") included.
   */
  function GradeAdjustment(grade: string): (g: int)
    ensures -1 <= g <= 1
    ensures g == 1 <==> grade == "a" || grade == "b"
    ensures g == -1 <==> grade == "d" || grade == "e"
    ensures g == 0 <==> grade !in {"a", "b", "d", "e"}
  {
    if grade == "a" || grade == "b" then 1
    else if grade == "d" || grade == "e" then -1
    else 0
  }

  function Clamp(x: int, lo: int, hi: int): (r: int)
    requires lo <= hi
    ensures lo <= r <= hi
    ensures lo <= x <= hi ==> r == x
  {
    if x < lo then lo else if x > hi then hi else x
  }

  /**
    The score in integers: `7 - 1.5h - 0.5w + g` is `s2 / 2` with
    `s2 = 14 - 3h - w + 2g`, and rounding half up is `(s2 + 1) / 2` under floor division.
   */
  function SafetyScore(harmful: nat, warnings: nat, grade: string): (r: int)
    ensures 0 <= r <= 10
  {
    var s2 := 14 - 3 * harmful - warnings + 2 * GradeAdjustment(grade);
    Clamp((s2 + 1) / 2, 0, 10)
  }

  /** JavaScript `Math.round`: the nearest integer, halves rounded towards positive infinity. */
  function RoundHalfUp(x: real): int {
    (x + 0.5).Floor
  }

  lemma FloorOfHalf(n: int)
    ensures ((n as real) / 2.0).Floor == n / 2
  {
    var q := n / 2;
    assert n == 2 * q + n % 2;
    assert (q as real) <= (n as real) / 2.0 < (q as real) + 1.0;
  }

  /** The integer computation equals the source's floating-point formula, rounded and clamped. */
  lemma SafetyScoreMatchesFormula(harmful: nat, warnings: nat, grade: string)
    ensures SafetyScore(harmful, warnings, grade)
            == Clamp(RoundHalfUp(7.0 - 1.5 * harmful as real - 0.5 * warnings as real
                                 + GradeAdjustment(grade) as real), 0, 10)
  {
    var s2 := 14 - 3 * harmful - warnings + 2 * GradeAdjustment(grade);
    var x := 7.0 - 1.5 * harmful as real - 0.5 * warnings as real + GradeAdjustment(grade) as real;
    assert x + 0.5 == ((s2 + 1) as real) / 2.0;
    FloorOfHalf(s2 + 1);
  }

  /** One more harmful ingredient or one more warning never raises the score. */
  lemma ScoreMonotone(harmful: nat, warnings: nat, grade: string)
    ensures SafetyScore(harmful + 1, warnings, grade) <= SafetyScore(harmful, warnings, grade)
    ensures SafetyScore(harmful, warnings + 1, grade) <= SafetyScore(harmful, warnings, grade)
  {
    var s2 := 14 - 3 * harmful - warnings + 2 * GradeAdjustment(grade);
    assert (s2 - 2) / 2 <= (s2 + 1) / 2;
    assert s2 / 2 <= (s2 + 1) / 2;
  }

  /** The opening verdict sentence for a score band. */
  function BandText(score: int): string {
    if score >= 7 then "appears to be relatively safe for consumption. "
    else if score >= 5 then "has some concerns that should be considered. "
    else "has multiple health concerns that warrant attention. "
  }

  function SummaryHead(productName: string, brand: string, score: int): string {
    productName + " by " + brand + " " + BandText(score)
  }

  const HarmfulLead := "Contains potentially harmful ingredients: "

  /** How many harmful names the summary lists: all of them, up to three (`slice(0, 3)`). */
  function Listed(harmful: seq<string>): (n: nat)
    ensures n <= 3 && n <= |harmful|
    ensures n == |harmful| || n == 3
  {
    if |harmful| < 3 then |harmful| else 3
  }

  /**
    The harmful-ingredients sentence: empty exactly when nothing was found;
    otherwise the listed names joined by ", ", the first one right after the
    lead-in.
   */
  function Mention(harmful: seq<string>): (m: string)
    ensures harmful == [] <==> m == ""
    ensures harmful != [] ==> m == HarmfulLead + Join(harmful[..Listed(harmful)], ", ") + ". "
    ensures harmful != [] ==> HarmfulLead + harmful[0] <= m
  {
    if |harmful| > 0 then
      var names := Join(harmful[..Listed(harmful)], ", ");
      assert harmful[..Listed(harmful)][0] == harmful[0];
      assert HarmfulLead + names + ". " == HarmfulLead + (names + ". ");
      HarmfulLead + names + ". "
    else ""
  }

  /**
    The summary: the band sentence, then the sentence naming the first (at most
    three) harmful substances when there are any, then the fixed disclaimer.
   */
  function Summary(productName: string, brand: string, score: int, harmful: seq<string>): (r: string)
    ensures SummaryHead(productName, brand, score) <= r
    ensures |r| >= |Disclaimer| && r[|r| - |Disclaimer|..] == Disclaimer
    ensures harmful == [] ==> r == SummaryHead(productName, brand, score) + Disclaimer
    ensures harmful != [] ==>
              r == SummaryHead(productName, brand, score)
                   + HarmfulLead + Join(harmful[..Listed(harmful)], ", ") + ". "
                   + Disclaimer
  {
    var head := SummaryHead(productName, brand, score);
    var mention := Mention(harmful);
    SummaryShape(head, mention, Disclaimer);
    MentionShape(head, HarmfulLead, Join(harmful[..Listed(harmful)], ", "), ". ", Disclaimer);
    head + mention + Disclaimer
  }

  /** The head is a prefix and the tail a suffix of `head + middle + tail`; an empty middle drops out. */
  lemma SummaryShape(head: string, middle: string, tail: string)
    ensures head <= head + middle + tail
    ensures |head + middle + tail| >= |tail|
    ensures (head + middle + tail)[|head + middle + tail| - |tail|..] == tail
    ensures middle == "" ==> head + middle + tail == head + tail
  {
    assert head + middle + tail == head + (middle + tail);
  }

  /** Regrouping the summary's five pieces. */
  lemma MentionShape(head: string, lead: string, names: string, stop: string, tail: string)
    ensures head + (lead + names + stop) + tail == head + lead + names + stop + tail
  {
  }

  /** Only the first three harmful names reach the summary. */
  lemma SummaryNamesAtMostThree(productName: string, brand: string, score: int, harmful: seq<string>)
    requires |harmful| > 3
    ensures Summary(productName, brand, score, harmful) == Summary(productName, brand, score, harmful[..3])
  {
    assert harmful[..3][..3] == harmful[..3];
  }

  /**
    `generateFallbackAnalysis`: harmful names are the reference selection, one
    moderate risk per name, warnings from the thresholds, the score from their
    counts and the grade, and the result is tagged as a fallback verdict.
   */
  function Generate(p: Fetched): (v: Verdict)
    ensures v.fallbackMode
    ensures v.harmfulSubstances == HarmfulNames(p.ingredients)
    ensures |v.ingredientRisks| == |v.harmfulSubstances|
    ensures forall k :: 0 <= k < |v.ingredientRisks| ==> v.ingredientRisks[k] == ModerateRisk(v.harmfulSubstances[k])
    ensures v.healthWarnings == HealthWarnings(p.nutriments)
    ensures ValidScore(v.safetyScore)
    ensures v.safetyScore == SafetyScore(|v.harmfulSubstances|, |v.healthWarnings|, p.nutriScore) as real
    ensures v.summary == Some(Summary(p.productName, p.brand,
                                      SafetyScore(|v.harmfulSubstances|, |v.healthWarnings|, p.nutriScore),
                                      v.harmfulSubstances))
  {
    var found := ScanIngredients(p.ingredients, Findings([], []));
    assert found.harmfulSubstances == HarmfulNames(p.ingredients);
    var warnings := HealthWarnings(p.nutriments);
    var score := SafetyScore(|found.harmfulSubstances|, |warnings|, p.nutriScore);
    Verdict(score as real, found.harmfulSubstances, warnings, found.ingredientRisks,
            Some(Summary(p.productName, p.brand, score, found.harmfulSubstances)), true)
  }

  lemma ShortKnownTerms()
    ensures forall k :: 0 <= k < |KnownHarmful| && |KnownHarmful[k]| <= 5 ==> KnownHarmful[k][0] in {'m', 'b'}
  {
  }

  lemma WaterIsHarmless()
    ensures !IsHarmfulName("Water")
  {
    var w := Lower("Water");
    assert w == "water";
    ShortKnownTerms();
    forall k | 0 <= k < |KnownHarmful| ensures !Contains(w, KnownHarmful[k]) {
      var t := KnownHarmful[k];
      forall i | OccursAt(w, t, i) ensures false {
      }
    }
  }

  lemma AspartameIsHarmful()
    ensures IsHarmfulName("Aspartame")
  {
    var a := Lower("Aspartame");
    assert a == "aspartame";
    assert OccursAt(a, KnownHarmful[3], 0);
  }

  /**
    Ingredients "Water" and "Aspartame" with no nutrient over its threshold and no
    grade adjustment: only "Aspartame" is harmful and the score is round(7 - 1.5) = 6.
   */
  lemma WaterAndAspartame(p: Fetched)
    requires |p.ingredients| == 2
    requires p.ingredients[0].name == "Water" && p.ingredients[1].name == "Aspartame"
    requires !HighSugar(p.nutriments) && !HighSalt(p.nutriments) && !HighSaturatedFat(p.nutriments)
    requires GradeAdjustment(p.nutriScore) == 0
    ensures Generate(p).harmfulSubstances == ["Aspartame"]
    ensures Generate(p).healthWarnings == []
    ensures Generate(p).safetyScore == 6.0
  {
    var v := Generate(p);
    WaterAspartameHarmful(p.ingredients);
    assert v.healthWarnings == [];
    OneHarmfulScore(p.nutriScore);
  }

  lemma OneHarmfulScore(grade: string)
    requires GradeAdjustment(grade) == 0
    ensures SafetyScore(1, 0, grade) == 6
  {
  }

  lemma WaterAspartameHarmful(ings: seq<Ingredient>)
    requires |ings| == 2 && ings[0].name == "Water" && ings[1].name == "Aspartame"
    ensures HarmfulNames(ings) == ["Aspartame"]
  {
    var tail := ings[1..];
    assert tail[0].name == "Aspartame" && tail[1..] == [];
    WaterIsHarmless();
    AspartameIsHarmful();
    assert !IsHarmfulName(ings[0].name);
    assert IsHarmfulName(tail[0].name);
    assert HarmfulNames(tail[1..]) == [];
    assert HarmfulNames(tail) == [tail[0].name] + HarmfulNames(tail[1..]);
    assert HarmfulNames(ings) == HarmfulNames(tail);
  }
}

=== FILE: js_text.dfy ===
/**
  The few JavaScript string operations the backend relies on:
  `String.prototype.trim`, `toLowerCase`, `includes`, `Array.prototype.join`
  and the `a || b` default idiom on strings and numbers.
 */
module JsText {
  import opened Wrappers

  /** The WhiteSpace and LineTerminator code points that `trim` removes. */
  const TrimmedChars: set<char> := {
    '\t', '\n', '\U{000B}', '\U{000C}', '\r', ' ', '\U{00A0}', '\U{1680}',
    '\U{2000}', '\U{2001}', '\U{2002}', '\U{2003}', '\U{2004}', '\U{2005}',
    '\U{2006}', '\U{2007}', '\U{2008}', '\U{2009}', '\U{200A}',
    '\U{2028}', '\U{2029}', '\U{202F}', '\U{205F}', '\U{3000}', '\U{FEFF}'
  }

  predicate IsWhitespace(c: char) {
    c in TrimmedChars
  }

  predicate AllWhitespace(s: string) {
    forall i :: 0 <= i < |s| ==> IsWhitespace(s[i])
  }

  /** Neither end of `s` is whitespace (vacuously true of the empty string). */
  predicate IsTrimmed(s: string) {
    s == [] || (!IsWhitespace(s[0]) && !IsWhitespace(s[|s| - 1]))
  }

  /** `s` without its leading whitespace: the longest suffix that does not start with whitespace. */
  function TrimStart(s: string): (r: string)
    ensures |r| <= |s| && r == s[|s| - |r|..]
    ensures AllWhitespace(s[..|s| - |r|])
    ensures r == [] || !IsWhitespace(r[0])
  {
    if |s| > 0 && IsWhitespace(s[0]) then
      var r := TrimStart(s[1..]);
      assert s[1..][|s| - 1 - |r|..] == s[|s| - |r|..];
      assert forall i :: 1 <= i < |s| - |r| ==> s[i] == s[1..][..|s| - 1 - |r|][i - 1];
      r
    else
      s
  }

  /** `s` without its trailing whitespace: the longest prefix that does not end with whitespace. */
  function TrimEnd(s: string): (r: string)
    ensures |r| <= |s| && r == s[..|r|]
    ensures AllWhitespace(s[|r|..])
    ensures r == [] || !IsWhitespace(r[|r| - 1])
  {
    if |s| > 0 && IsWhitespace(s[|s| - 1]) then
      var r := TrimEnd(s[..|s| - 1]);
      assert s[..|s| - 1][..|r|] == s[..|r|];
      assert forall i :: |r| <= i < |s| - 1 ==> s[i] == s[..|s| - 1][|r|..][i - |r|];
      r
    else
      s
  }

  /** `d` is `s` with `i` characters of whitespace cut from the front and only whitespace from the back. */
  predicate PaddedAt(s: string, d: string, i: int) {
    0 <= i <= |s| - |d| && s[i..i + |d|] == d
    && AllWhitespace(s[..i]) && AllWhitespace(s[i + |d|..])
  }

  /** `String.prototype.trim`: a contiguous piece of `s`, with only whitespace cut from either side. */
  function Trim(s: string): (r: string)
    ensures |r| <= |s|
    ensures PaddedAt(s, r, |s| - |TrimStart(s)|)
    ensures IsTrimmed(r)
  {
    TrimPieces(s, TrimStart(s), TrimEnd(TrimStart(s)));
    TrimEnd(TrimStart(s))
  }

  /** Cutting whitespace from the front and then from the back of `s` leaves a padded, trimmed piece of `s`. */
  lemma TrimPieces(s: string, t: string, r: string)
    requires |t| <= |s| && t == s[|s| - |t|..] && AllWhitespace(s[..|s| - |t|])
    requires t == [] || !IsWhitespace(t[0])
    requires |r| <= |t| && r == t[..|r|] && AllWhitespace(t[|r|..])
    requires r == [] || !IsWhitespace(r[|r| - 1])
    ensures PaddedAt(s, r, |s| - |t|)
    ensures IsTrimmed(r)
  {
    var i := |s| - |t|;
    assert s[i..i + |r|] == r;
    assert s[i + |r|..] == t[|r|..];
  }

  /** Leading whitespace in front of a string that does not start with whitespace is all `TrimStart` removes. */
  lemma {:induction false} TrimStartOfPadded(pre: string, rest: string)
    requires AllWhitespace(pre) && (rest == [] || !IsWhitespace(rest[0]))
    ensures TrimStart(pre + rest) == rest
    decreases |pre|
  {
    if pre != [] {
      assert (pre + rest)[0] == pre[0];
      assert (pre + rest)[1..] == pre[1..] + rest;
      TrimStartOfPadded(pre[1..], rest);
    } else {
      assert pre + rest == rest;
    }
  }

  /** Trailing whitespace behind a string that does not end with whitespace is all `TrimEnd` removes. */
  lemma {:induction false} TrimEndOfPadded(rest: string, post: string)
    requires AllWhitespace(post) && (rest == [] || !IsWhitespace(rest[|rest| - 1]))
    ensures TrimEnd(rest + post) == rest
    decreases |post|
  {
    var s := rest + post;
    if post != [] {
      assert s[|s| - 1] == post[|post| - 1];
      assert s[..|s| - 1] == rest + post[..|post| - 1];
      TrimEndOfPadded(rest, post[..|post| - 1]);
    } else {
      assert s == rest;
    }
  }

  /** Whatever whitespace pads a trimmed string, `Trim` recovers exactly that string. */
  lemma TrimOfPadded(pre: string, d: string, post: string)
    requires AllWhitespace(pre) && AllWhitespace(post) && IsTrimmed(d)
    ensures Trim(pre + d + post) == d
  {
    if d == [] {
      assert pre + d + post == pre + post;
      TrimEndOfPadded([], post);
      assert TrimStart(pre + post) == [] by {
        assert forall i :: 0 <= i < |pre + post| ==> IsWhitespace((pre + post)[i]) by {
          forall i | 0 <= i < |pre + post| ensures IsWhitespace((pre + post)[i]) {
            if i >= |pre| { assert (pre + post)[i] == post[i - |pre|]; }
          }
        }
      }
    } else {
      assert pre + d + post == pre + (d + post);
      TrimStartOfPadded(pre, d + post);
      TrimEndOfPadded(d, post);
    }
  }

  /** A string made only of whitespace trims to the empty string. */
  lemma TrimOfAllWhitespace(s: string)
    requires AllWhitespace(s)
    ensures Trim(s) == []
  {
    var t := TrimStart(s);
    assert t == [];
  }

  /** A string with no whitespace at either end is its own trim. */
  lemma TrimOfTrimmed(d: string)
    requires IsTrimmed(d)
    ensures Trim(d) == d
  {
    assert d == [] + d + [];
    TrimOfPadded([], d, []);
  }

  /** Trimming twice is trimming once. */
  lemma TrimIdempotent(s: string)
    ensures Trim(Trim(s)) == Trim(s)
  {
    TrimOfTrimmed(Trim(s));
  }

  /** ASCII lower-casing of one code point. */
  function LowerChar(c: char): char {
    if 'A' <= c <= 'Z' then (c as int + 32) as char else c
  }

  /** `toLowerCase`, restricted to the ASCII letters. */
  function Lower(s: string): (r: string)
    ensures |r| == |s|
    ensures forall i :: 0 <= i < |s| ==> r[i] == LowerChar(s[i])
  {
    seq(|s|, i requires 0 <= i < |s| => LowerChar(s[i]))
  }

  predicate HasNoUpper(s: string) {
    forall i :: 0 <= i < |s| ==> !('A' <= s[i] <= 'Z')
  }

  lemma LowerOfLowercase(s: string)
    requires HasNoUpper(s)
    ensures Lower(s) == s
  {
  }

  /** `t` occurs in `s` starting at index `i`. */
  ghost predicate OccursAt(s: string, t: string, i: int) {
    0 <= i && i + |t| <= |s| && s[i..i + |t|] == t
  }

  /** `s.includes(t)`: the empty string occurs everywhere. */
  function Contains(s: string, t: string): (r: bool)
    ensures r <==> exists i :: OccursAt(s, t, i)
    decreases |s|
  {
    if |t| > |s| then
      assert forall i :: !OccursAt(s, t, i);
      false
    else if s[..|t|] == t then
      assert OccursAt(s, t, 0);
      true
    else
      var r := Contains(s[1..], t);
      assert forall i :: OccursAt(s[1..], t, i) <==> OccursAt(s, t, i + 1) by {
        forall i ensures OccursAt(s[1..], t, i) <==> OccursAt(s, t, i + 1) {
          if 0 <= i && i + |t| <= |s| - 1 {
            assert s[1..][i..i + |t|] == s[i + 1..i + 1 + |t|];
          }
        }
      }
      assert r ==> exists i :: OccursAt(s, t, i) by {
        if r {
          var i :| OccursAt(s[1..], t, i);
          assert OccursAt(s, t, i + 1);
        }
      }
      assert (exists i :: OccursAt(s, t, i)) ==> r by {
        if exists i :: OccursAt(s, t, i) {
          var i :| OccursAt(s, t, i);
          assert i != 0;
          assert OccursAt(s[1..], t, i - 1);
        }
      }
      r
  }

  /** The summed lengths of the parts. */
  function TotalLength(parts: seq<string>): nat {
    if |parts| == 0 then 0 else |parts[0]| + TotalLength(parts[1..])
  }

  /**
    `parts.join(sep)`: empty for no parts, otherwise starting with the first
    part and as long as all parts plus one separator between each two.
   */
  function Join(parts: seq<string>, sep: string): (r: string)
    ensures parts == [] ==> r == ""
    ensures |parts| == 1 ==> r == parts[0]
    ensures |parts| >= 1 ==> parts[0] <= r
    ensures |parts| >= 1 ==> |r| == TotalLength(parts) + (|parts| - 1) * |sep|
    decreases |parts|
  {
    if |parts| == 0 then ""
    else if |parts| == 1 then parts[0]
    else parts[0] + sep + Join(parts[1..], sep)
  }

  /**
    Joining two non-empty lists of parts puts exactly one separator between
    them. With the one-part case this pins `join` down for every list: each
    part appears in order, with a separator between each neighbouring pair.
   */
  lemma {:induction false} JoinAppend(a: seq<string>, b: seq<string>, sep: string)
    requires |a| > 0 && |b| > 0
    ensures Join(a + b, sep) == Join(a, sep) + sep + Join(b, sep)
    decreases |a|
  {
    assert (a + b)[0] == a[0];
    assert (a + b)[1..] == a[1..] + b;
    if |a| > 1 {
      JoinAppend(a[1..], b, sep);
      assert Join(a + b, sep) == a[0] + sep + (Join(a[1..], sep) + sep + Join(b, sep));
    }
  }

  /** `a || b` on a string that may be absent: an absent or empty `a` is falsy. */
  function Or(a: Option<string>, b: string): (r: string)
    ensures a.Some? && a.value != "" ==> r == a.value
    ensures a.None? || a.value == "" ==> r == b
  {
    if a.Some? && a.value != "" then a.value else b
  }

  /** `a || b` on two strings that may be absent. */
  function OrMaybe(a: Option<string>, b: Option<string>): (r: Option<string>)
    ensures a.Some? && a.value != "" ==> r == a
    ensures a.None? || a.value == "" ==> r == b
  {
    if a.Some? && a.value != "" then a else b
  }

  /** `a || b` on numbers that may be absent: zero is falsy (NaN is not modelled). */
  function NumOr(a: Option<real>, b: Option<real>): (r: Option<real>)
    ensures a.Some? && a.value != 0.0 ==> r == a
    ensures a.None? || a.value == 0.0 ==> r == b
  {
    if a.Some? && a.value != 0.0 then a else b
  }
}

=== FILE: pipeline.dfy ===
/**
  The scan pipeline `analyzeAndCacheProduct` (backend/services/productService.js):
  validate the barcode, try the cache, fetch from the catalog, analyse, flag
  the region's banned substances, write the cache. The collaborators are the
  parameters of `Env`; the collection is threaded through as a value.
 */
module Pipeline {
  import opened Wrappers
  import opened JsText
  import opened ProductModel
  import opened Barcode
  import opened Cache
  import Catalog
  import AiAnalysis
  import Fallback
  import Region

  /** The stages, in the only order the pipeline runs them. */
  datatype Step = CacheRead | Fetch | Analyse | RegionFlagging | CacheWrite

  const FullRun: seq<Step> := [CacheRead, Fetch, Analyse, RegionFlagging, CacheWrite]

  const UnavailableSummary := "AI analysis unavailable. Showing raw data only."

  /**
    The outside world of one pipeline call: the catalog's answer per barcode,
    the analyser client, whether the database answers reads and writes, and the
    configured time to live in days. Both cache stages read and then write: a
    hit saves the scan-count bump before returning, and a write first looks up
    the existing entry. Either stage needs both flags.
   */
  datatype Env = Env(
    catalog: string -> Catalog.HttpOutcome,
    ai: AiAnalysis.AiClient,
    readOk: bool,
    writeOk: bool,
    ttlDays: nat)

  /** The database answers both reads and writes, as each cache stage needs. */
  predicate CacheServes(env: Env) {
    env.readOk && env.writeOk
  }

  /** An exception leaving the pipeline: the validator's error, or a TypeError from a malformed risk entry. */
  datatype Failure = InvalidBarcode(message: string) | TypeError

  datatype Outcome = Threw(error: Failure) | Done(product: Option<Record>, fromCache: bool)

  /** The outcome, the collection afterwards, and the stages that ran. */
  datatype Run = Run(outcome: Outcome, store: Store, steps: seq<Step>)

  /** `userContext.region || "US"`. */
  function RegionOf(ctx: Context): (r: string)
    ensures r != ""
    ensures "region" in ctx && ctx["region"].Str? && ctx["region"].s != "" ==> r == ctx["region"].s
    ensures !("region" in ctx && ctx["region"].Str? && ctx["region"].s != "") ==> r == Region.DefaultRegion
  {
    if "region" in ctx && ctx["region"].Str? && ctx["region"].s != "" then ctx["region"].s
    else Region.DefaultRegion
  }

  // ---------------------------------------------------------------------------
  // The ingredient-risk merge

  /** The result of `ingredientRisks.find(...)` for one ingredient: an entry, `undefined`, or a TypeError. */
  datatype Match = Found(entry: RiskEntry) | NoMatch | NameError

  /** The entry's name, lower-cased, is `lowerName`. */
  predicate NamedAs(e: RiskEntry, lowerName: string) {
    e.name.Some? && Lower(e.name.value) == lowerName
  }

  /** The search has looked at every entry before `j` without stopping: each had a string name that did not match. */
  predicate PassedOver(entries: seq<RiskEntry>, lowerName: string, j: int)
    requires 0 <= j <= |entries|
  {
    forall k :: 0 <= k < j ==> entries[k].name.Some? && !NamedAs(entries[k], lowerName)
  }

  /** Where `find` stops: the first entry that matches or has no string name, else the end. */
  function StopIndex(entries: seq<RiskEntry>, lowerName: string): (j: nat)
    ensures j <= |entries|
    ensures PassedOver(entries, lowerName, j)
    ensures j < |entries| ==> entries[j].name.None? || NamedAs(entries[j], lowerName)
  {
    if |entries| == 0 then 0
    else if entries[0].name.None? || NamedAs(entries[0], lowerName) then 0
    else
      var j := StopIndex(entries[1..], lowerName);
      assert forall k :: 1 <= k <= j ==> entries[1..][k - 1] == entries[k];
      1 + j
  }

  /**
    `ingredientRisks.find((r) => r.name.toLowerCase() === lowerName)`: the first
    entry whose lower-cased name matches, unless an entry without a string name
    comes first, whose `toLowerCase` call throws.
   */
  function FindRisk(entries: seq<RiskEntry>, lowerName: string): (r: Match)
    ensures r.NoMatch? <==> PassedOver(entries, lowerName, |entries|)
    ensures r.Found? ==> exists j :: 0 <= j < |entries| && PassedOver(entries, lowerName, j)
                                     && entries[j] == r.entry && NamedAs(r.entry, lowerName)
    ensures r.NameError? ==> exists j :: 0 <= j < |entries| && PassedOver(entries, lowerName, j)
                                         && entries[j].name.None?
  {
    var j := StopIndex(entries, lowerName);
    if j == |entries| then NoMatch
    else if entries[j].name.None? then NameError
    else Found(entries[j])
  }

  /** Every entry has a string name, so `find` cannot throw. */
  predicate WellNamed(entries: seq<RiskEntry>) {
    forall k :: 0 <= k < |entries| ==> entries[k].name.Some?
  }

  /** With well-named entries the search finds exactly when some entry matches. */
  lemma WellNamedFind(entries: seq<RiskEntry>, lowerName: string)
    requires WellNamed(entries)
    ensures !FindRisk(entries, lowerName).NameError?
    ensures FindRisk(entries, lowerName).Found? <==> exists k :: 0 <= k < |entries| && NamedAs(entries[k], lowerName)
  {
    if FindRisk(entries, lowerName).NoMatch? {
      assert PassedOver(entries, lowerName, |entries|);
    }
  }

  /** One ingredient after the merge: a matching entry sets the three analysis fields, with their fallbacks. */
  function Enrich(ing: Ingredient, m: Match): (r: Ingredient)
    ensures r.name == ing.name && r.percentage == ing.percentage
    ensures !m.Found? ==> r == ing
    ensures m.Found? ==> r.isHarmful == m.entry.isHarmful
                         && r.riskLevel == Or(m.entry.riskLevel, RiskLow)
                         && r.description == Or(m.entry.description, "")
  {
    match m
    case Found(e) => ing.(isHarmful := e.isHarmful, riskLevel := Or(e.riskLevel, RiskLow), description := Or(e.description, ""))
    case _ => ing
  }

  /** The match the merge uses for one ingredient. */
  function MatchFor(entries: seq<RiskEntry>, ing: Ingredient): Match {
    FindRisk(entries, Lower(ing.name))
  }

  /**
    `raw.ingredients.map(...)` joining the analyser's risk entries onto the
    ingredients: it throws exactly when some ingredient's search throws, and
    otherwise keeps count, order, names and percentages, enriching each
    ingredient from its first matching entry.
   */
  function MergeRisks(ings: seq<Ingredient>, entries: seq<RiskEntry>): (r: Option<seq<Ingredient>>)
    ensures r.None? <==> exists i :: 0 <= i < |ings| && MatchFor(entries, ings[i]).NameError?
    ensures r.Some? ==> |r.value| == |ings|
    ensures r.Some? ==> forall i :: 0 <= i < |ings| ==> r.value[i] == Enrich(ings[i], MatchFor(entries, ings[i]))
    ensures r.Some? ==> forall i :: 0 <= i < |ings| ==>
              r.value[i].name == ings[i].name && r.value[i].percentage == ings[i].percentage
  {
    if |ings| == 0 then Some([])
    else
      var m := MatchFor(entries, ings[0]);
      if m.NameError? then None
      else
        var rest := MergeRisks(ings[1..], entries);
        assert forall i :: 1 <= i < |ings| ==> ings[1..][i - 1] == ings[i];
        match rest
        case None => None
        case Some(tail) => Some([Enrich(ings[0], m)] + tail)
  }

  /** Well-named entries never make the merge throw. */
  lemma WellNamedMerges(ings: seq<Ingredient>, entries: seq<RiskEntry>)
    ensures WellNamed(entries) ==> MergeRisks(ings, entries).Some?
  {
    if WellNamed(entries) {
      forall i | 0 <= i < |ings|
        ensures !MatchFor(entries, ings[i]).NameError?
      {
        WellNamedFind(entries, Lower(ings[i].name));
      }
    }
  }

  /** A name test that only looks at the lower-cased name. */
  ghost predicate CaseBlind(test: string -> bool) {
    forall a, b :: Lower(a) == Lower(b) ==> test(a) == test(b)
  }

  /** The fallback's harmful-name test is case-blind. */
  lemma HarmfulNameCaseBlind()
    ensures CaseBlind(Fallback.IsHarmfulName)
  {
    forall a, b | Lower(a) == Lower(b)
      ensures Fallback.IsHarmfulName(a) == Fallback.IsHarmfulName(b)
    {
    }
  }

  /**
    Searching moderate risk entries built from `names` for one name, where
    `names` holds exactly the names that pass a case-blind test: the search
    never throws, and it finds a harmful, moderate entry exactly when the name
    passes the test.
   */
  lemma MatchByTest(names: seq<string>, name: string, test: string -> bool)
    requires CaseBlind(test)
    requires forall x :: x in names ==> test(x)
    requires test(name) ==> name in names
    ensures var m := FindRisk(Fallback.RisksFor(names), Lower(name));
            && !m.NameError?
            && (m.Found? <==> test(name))
            && (m.Found? ==> m.entry.isHarmful && m.entry.riskLevel == Some(RiskModerate))
  {
    var entries := Fallback.RisksFor(names);
    var lower := Lower(name);
    assert WellNamed(entries);
    WellNamedFind(entries, lower);
    var m := FindRisk(entries, lower);
    if test(name) {
      var k :| 0 <= k < |names| && names[k] == name;
      assert NamedAs(entries[k], lower);
    }
    if m.Found? {
      var j :| 0 <= j < |entries| && entries[j] == m.entry && NamedAs(m.entry, lower);
      assert names[j] in names;
      assert test(names[j]) == test(name);
    }
  }

  /** One fresh ingredient merged with such entries: marked harmful and moderate exactly when its name passes the test. */
  lemma EnrichByTest(names: seq<string>, ing: Ingredient, test: string -> bool)
    requires CaseBlind(test)
    requires forall x :: x in names ==> test(x)
    requires test(ing.name) ==> ing.name in names
    requires !ing.isHarmful && ing.riskLevel == RiskLow
    ensures !MatchFor(Fallback.RisksFor(names), ing).NameError?
    ensures var e := Enrich(ing, MatchFor(Fallback.RisksFor(names), ing));
            && (e.isHarmful <==> test(ing.name))
            && e.riskLevel == (if test(ing.name) then RiskModerate else RiskLow)
  {
    MatchByTest(names, ing.name, test);
  }

  /** Merging such entries onto fresh ingredients never throws and marks exactly the names that pass the test. */
  lemma MergeByTest(ings: seq<Ingredient>, names: seq<string>, test: string -> bool)
    requires CaseBlind(test)
    requires forall i :: 0 <= i < |ings| ==> !ings[i].isHarmful && ings[i].riskLevel == RiskLow
    requires forall x :: x in names ==> test(x)
    requires forall i :: 0 <= i < |ings| && test(ings[i].name) ==> ings[i].name in names
    ensures MergeRisks(ings, Fallback.RisksFor(names)).Some?
    ensures var r := MergeRisks(ings, Fallback.RisksFor(names)).value;
            forall i :: 0 <= i < |ings| ==>
              && (r[i].isHarmful <==> test(ings[i].name))
              && r[i].riskLevel == (if test(ings[i].name) then RiskModerate else RiskLow)
  {
    var entries := Fallback.RisksFor(names);
    forall i | 0 <= i < |ings|
      ensures !MatchFor(entries, ings[i]).NameError?
      ensures var e := Enrich(ings[i], MatchFor(entries, ings[i]));
              && (e.isHarmful <==> test(ings[i].name))
              && e.riskLevel == (if test(ings[i].name) then RiskModerate else RiskLow)
    {
      EnrichByTest(names, ings[i], test);
    }
  }

  /**
    The fallback's own risk entries merge without error, and on freshly fetched
    ingredients they mark exactly the harmful names, as moderate risks.
   */
  lemma FallbackMerge(ings: seq<Ingredient>)
    requires forall i :: 0 <= i < |ings| ==> !ings[i].isHarmful && ings[i].riskLevel == RiskLow
    ensures MergeRisks(ings, Fallback.RisksFor(Fallback.HarmfulNames(ings))).Some?
    ensures var r := MergeRisks(ings, Fallback.RisksFor(Fallback.HarmfulNames(ings))).value;
            forall i :: 0 <= i < |ings| ==>
              && (r[i].isHarmful <==> Fallback.IsHarmfulName(ings[i].name))
              && r[i].riskLevel == (if Fallback.IsHarmfulName(ings[i].name) then RiskModerate else RiskLow)
  {
    HarmfulNameCaseBlind();
    MergeByTest(ings, Fallback.HarmfulNames(ings), Fallback.IsHarmfulName);
  }

  // ---------------------------------------------------------------------------
  // Assembling the document

  /** The document spread from the fetched record with the analysis fields set; no region flags yet. */
  function WithAnalysis(raw: Fetched, ings: seq<Ingredient>, score: Option<real>, summary: Option<string>,
                        warnings: seq<string>, harmful: seq<string>): (d: Product)
    ensures d.barcode == raw.barcode && d.productName == raw.productName && d.brand == raw.brand
    ensures d.category == raw.category && d.imageUrl == raw.imageUrl && d.nutriScore == raw.nutriScore
    ensures d.nutriments == raw.nutriments
    ensures d.ingredients == ings && d.safetyScore == score && d.summary == summary
    ensures d.healthWarnings == warnings && d.harmfulSubstances == harmful
  {
    Product(raw.barcode, raw.productName, raw.brand, raw.category, raw.imageUrl, raw.nutriScore,
            raw.nutriments, ings, score, summary, warnings, harmful, map[])
  }

  /** `doc.regionFlags = { [flag.region]: flag.violations }`: one key, the requested region. */
  function Flagged(doc: Product, region: string): (d: Product)
    ensures d == doc.(regionFlags := d.regionFlags)
    ensures d.regionFlags.Keys == {region}
    ensures d.regionFlags[region] == Region.ComputeRegionFlags(doc.ingredients, region).violations
  {
    var flag := Region.ComputeRegionFlags(doc.ingredients, region);
    doc.(regionFlags := map[flag.region := flag.violations])
  }

  /**
    Where the pipeline's flagging departs from the region lookup as written:
    the as-written evaluator throws exactly for the inherited property names,
    and for every other region it produces the flags the pipeline records.
   */
  lemma FlaggedAsWritten(doc: Product, region: string)
    ensures Region.ComputeRegionFlagsAsWritten(doc.ingredients, region).None? <==> region in Region.InheritedKeys
    ensures region !in Region.InheritedKeys ==>
              Flagged(doc, region).regionFlags
              == map[region := Region.ComputeRegionFlagsAsWritten(doc.ingredients, region).value.violations]
  {
  }

  /**
    A run that answered with a written document left exactly that document and
    its bookkeeping under `code`, due to expire at `expiry`.
   */
  predicate KeptAsAnswered(run: Run, code: string, expiry: int) {
    run.outcome.Done? && run.outcome.product.Some? && run.outcome.product.value.meta.Some? ==>
      && code in run.store
      && run.store[code] == Stored(run.outcome.product.value.doc, run.outcome.product.value.meta.value)
      && run.outcome.product.value.meta.value.cacheExpiry == expiry
  }

  /** The last two stages: flag the region, then write the cache; the answer is what the write hands back. */
  function Finish(env: Env, store: Store, doc: Product, ctx: Context, now: int): (run: Run)
    ensures run.steps == FullRun
    ensures run.outcome.Done? && run.outcome.product.Some? && !run.outcome.fromCache
    ensures run.outcome.product.value.doc == Flagged(doc, RegionOf(ctx))
    ensures run.store == Upsert(store, Flagged(doc, RegionOf(ctx)), now, env.ttlDays, CacheServes(env)).store
    ensures !CacheServes(env) ==> run.store == store && run.outcome.product.value.meta.None?
    ensures run.outcome.product.value.doc.barcode == doc.barcode
    ensures run.outcome.product.value.doc.regionFlags.Keys == {RegionOf(ctx)}
    ensures StoreInvariant(store) ==> StoreInvariant(run.store)
    ensures KeptAsAnswered(run, doc.barcode, now + env.ttlDays * MsPerDay)
  {
    var flagged := Flagged(doc, RegionOf(ctx));
    var written := Upsert(store, flagged, now, env.ttlDays, CacheServes(env));
    Run(Done(Some(written.saved), false), written.store, FullRun)
  }

  /** The document built when the analyser call failed: raw data, no score, the fixed notice, empty lists. */
  function UnavailableDoc(raw: Fetched): Product {
    WithAnalysis(raw, raw.ingredients, None, Some(UnavailableSummary), [], [])
  }

  /** The document built from a verdict and the merged ingredients. */
  function AnalysedDoc(raw: Fetched, ings: seq<Ingredient>, v: Verdict): Product {
    WithAnalysis(raw, ings, Some(v.safetyScore), v.summary, v.healthWarnings, v.harmfulSubstances)
  }

  /**
    The stages after the catalog answered with a record: analyse, merge, flag,
    write. Only a merge over a malformed risk entry throws, and then nothing is
    written.
   */
  function Analysed(env: Env, store: Store, raw: Fetched, ctx: Context, now: int): (run: Run)
    ensures run.outcome.Threw? ==> run.outcome == Threw(TypeError) && run.store == store
                                   && run.steps == [CacheRead, Fetch, Analyse]
    ensures run.outcome.Threw? ==>
              && AiAnalysis.AnalyzeProduct(env.ai, raw, ctx).Some?
              && MergeRisks(raw.ingredients, AiAnalysis.AnalyzeProduct(env.ai, raw, ctx).value.ingredientRisks).None?
    ensures run.outcome.Done? ==>
              && run.steps == FullRun
              && run.outcome.product.Some? && !run.outcome.fromCache
              && run.outcome.product.value.doc.barcode == raw.barcode
              && run.outcome.product.value.doc.regionFlags.Keys == {RegionOf(ctx)}
    ensures StoreInvariant(store) ==> StoreInvariant(run.store)
    ensures KeptAsAnswered(run, raw.barcode, now + env.ttlDays * MsPerDay)
  {
    match AiAnalysis.AnalyzeProduct(env.ai, raw, ctx)
    case None => Finish(env, store, UnavailableDoc(raw), ctx, now)
    case Some(v) =>
      match MergeRisks(raw.ingredients, v.ingredientRisks)
      case None => Run(Threw(TypeError), store, [CacheRead, Fetch, Analyse])
      case Some(ings) => Finish(env, store, AnalysedDoc(raw, ings, v), ctx, now)
  }

  /** The stages after a cache miss: a catalog miss answers "no product" and changes nothing. */
  function Missed(env: Env, store: Store, code: string, ctx: Context, now: int): (run: Run)
    ensures run.outcome.Threw? ==> run.outcome == Threw(TypeError) && run.store == store
    ensures run.outcome.Done? ==> !run.outcome.fromCache
    ensures run.steps <= FullRun && |run.steps| >= 2 && run.steps[..2] == [CacheRead, Fetch]
    ensures run.outcome.Done? && run.outcome.product.Some? ==>
              && run.outcome.product.value.doc.barcode == code
              && run.outcome.product.value.doc.regionFlags.Keys == {RegionOf(ctx)}
    ensures Catalog.FetchProduct(code, env.catalog(code)).None? ==>
              run == Run(Done(None, false), store, [CacheRead, Fetch])
    ensures run.outcome.Done? && run.outcome.product.None? ==> run.store == store
    ensures StoreInvariant(store) ==> StoreInvariant(run.store)
    ensures KeptAsAnswered(run, code, now + env.ttlDays * MsPerDay)
  {
    match Catalog.FetchProduct(code, env.catalog(code))
    case None => Run(Done(None, false), store, [CacheRead, Fetch])
    case Some(raw) => Analysed(env, store, raw, ctx, now)
  }

  /** The stages after validation, for a validated barcode. */
  function FromCache(env: Env, store: Store, code: string, ctx: Context, now: int): (run: Run)
    ensures run.steps <= FullRun && |run.steps| >= 1
    ensures run.outcome.Threw? ==> run.outcome == Threw(TypeError) && run.store == store
    ensures run.outcome.Done? && run.outcome.product.None? ==> run.store == store
    ensures run.outcome.Done? && run.outcome.fromCache <==> run.steps == [CacheRead]
    ensures run.outcome.Done? && run.outcome.fromCache <==> CacheServes(env) && Fresh(store, code, now)
    ensures run.outcome.Done? && run.outcome.product.Some? && !run.outcome.fromCache ==>
              && run.outcome.product.value.doc.barcode == code
              && run.outcome.product.value.doc.regionFlags.Keys == {RegionOf(ctx)}
    ensures run.outcome.Done? && run.outcome.fromCache ==>
              && run.outcome.product.Some? && run.outcome.product.value.meta.Some?
              && run.outcome.product.value.meta.value.source == CacheSource
              && (StoreInvariant(store) ==> run.outcome.product.value.doc.barcode == code)
    ensures StoreInvariant(store) ==> StoreInvariant(run.store)
    ensures !(CacheServes(env) && Fresh(store, code, now)) ==> KeptAsAnswered(run, code, now + env.ttlDays * MsPerDay)
  {
    var read := Lookup(store, code, now, env.readOk, env.writeOk);
    if read.hit.Some? then
      assert StoreInvariant(store) ==> store[code].doc.barcode == code;
      Run(Done(read.hit, true), read.store, [CacheRead])
    else
      Missed(env, store, code, ctx, now)
  }

  /**
    `analyzeAndCacheProduct`. An invalid barcode throws before any stage runs;
    a cache hit ends after the read; a catalog miss after the fetch; a merge
    that throws after the analysis; everything else runs all five stages and
    answers with a document flagged for exactly the context's region.
   */
  function AnalyzeAndCache(env: Env, store: Store, input: BarcodeInput, ctx: Context, now: int): (run: Run)
    ensures run.steps <= FullRun
    ensures Validate(input).Invalid? <==> run.outcome == Threw(InvalidBarcode(InvalidBarcodeMessage))
    ensures Validate(input).Invalid? ==> run.steps == [] && run.store == store
    ensures Validate(input).Valid? ==> run == FromCache(env, store, Validate(input).barcode, ctx, now)
    ensures Validate(input).Valid? && run.outcome.Threw? ==> run.outcome.error == TypeError
    ensures run.outcome.Threw? ==> run.store == store
    ensures run.outcome.Done? && run.outcome.product.None? ==> run.store == store
    ensures StoreInvariant(store) ==> StoreInvariant(run.store)
  {
    match Validate(input)
    case Invalid(message) => Run(Threw(InvalidBarcode(message)), store, [])
    case Valid(code) =>
      var run := FromCache(env, store, code, ctx, now);
      assert run.outcome.Threw? ==> run.outcome.error == TypeError;
      run
  }

  // ---------------------------------------------------------------------------
  // Properties of whole runs

  /**
    When the analyser call throws, the pipeline still answers with the raw data:
    no score, the fixed notice, no warnings or substances, the catalog's
    ingredients unchanged, flagged for the context's region.
   */
  lemma AnalyserFailureDegrades(env: Env, store: Store, code: string, raw: Fetched, ctx: Context, now: int)
    requires !(CacheServes(env) && Fresh(store, code, now))
    requires Catalog.FetchProduct(code, env.catalog(code)) == Some(raw)
    requires env.ai.Configured? && env.ai.complete(raw, ctx).Threw?
    ensures var run := FromCache(env, store, code, ctx, now);
            && run.outcome.Done? && run.outcome.product.Some? && !run.outcome.fromCache
            && run.steps == FullRun
            && var doc := run.outcome.product.value.doc;
               && doc.safetyScore.None? && doc.summary == Some(UnavailableSummary)
               && doc.healthWarnings == [] && doc.harmfulSubstances == []
               && doc.ingredients == raw.ingredients
               && doc.regionFlags == map[RegionOf(ctx) := Region.ComputeRegionFlags(raw.ingredients, RegionOf(ctx)).violations]
  {
  }

  /** The fallback's risk entries are exactly one moderate entry per harmful name. */
  lemma FallbackRisks(raw: Fetched)
    ensures Fallback.Generate(raw).ingredientRisks == Fallback.RisksFor(Fallback.HarmfulNames(raw.ingredients))
    ensures WellNamed(Fallback.Generate(raw).ingredientRisks)
  {
  }

  /**
    Without an analyser client the stages after the fetch never throw; the
    document carries the fallback's score and marks exactly the harmful
    ingredient names.
   */
  lemma UnconfiguredUsesFallback(env: Env, store: Store, raw: Fetched, ctx: Context, now: int)
    requires env.ai.Unconfigured?
    requires forall i :: 0 <= i < |raw.ingredients| ==>
               !raw.ingredients[i].isHarmful && raw.ingredients[i].riskLevel == RiskLow
    ensures var run := Analysed(env, store, raw, ctx, now);
            && run.outcome.Done? && run.outcome.product.Some? && run.steps == FullRun
            && var doc := run.outcome.product.value.doc;
               && doc.safetyScore == Some(Fallback.Generate(raw).safetyScore)
               && doc.harmfulSubstances == Fallback.HarmfulNames(raw.ingredients)
               && |doc.ingredients| == |raw.ingredients|
               && forall i :: 0 <= i < |raw.ingredients| ==>
                    (doc.ingredients[i].isHarmful <==> Fallback.IsHarmfulName(raw.ingredients[i].name))
  {
    FallbackRisks(raw);
    FallbackMerge(raw.ingredients);
  }

  /** The same from the cache read on: after a miss, a catalog record is analysed by the fallback. */
  lemma UnconfiguredScan(env: Env, store: Store, code: string, ctx: Context, now: int)
    requires env.ai.Unconfigured?
    requires !(CacheServes(env) && Fresh(store, code, now))
    requires Catalog.FetchProduct(code, env.catalog(code)).Some?
    ensures var raw := Catalog.FetchProduct(code, env.catalog(code)).value;
            var run := FromCache(env, store, code, ctx, now);
            && run == Analysed(env, store, raw, ctx, now)
            && run.outcome.Done? && run.outcome.product.Some?
            && run.outcome.product.value.doc.safetyScore == Some(Fallback.Generate(raw).safetyScore)
  {
    var raw := Catalog.FetchProduct(code, env.catalog(code)).value;
    UnconfiguredUsesFallback(env, store, raw, ctx, now);
  }

  /**
    An entry at or past its expiry is never served: the run goes on to the
    catalog.
   */
  lemma ExpiredIsRefetched(env: Env, store: Store, code: string, ctx: Context, now: int)
    requires code in store && store[code].meta.cacheExpiry <= now
    ensures var run := FromCache(env, store, code, ctx, now);
            |run.steps| >= 2 && run.steps[1] == Fetch && !(run.outcome.Done? && run.outcome.fromCache)
  {
    assert !Fresh(store, code, now);
    CacheMissFetches(env, store, code, ctx, now);
    var run := Missed(env, store, code, ctx, now);
    assert run.steps[1] == run.steps[..2][1] == Fetch;
  }

  /** Without a fresh readable entry the run continues exactly as after a cache miss. */
  lemma CacheMissFetches(env: Env, store: Store, code: string, ctx: Context, now: int)
    requires !(CacheServes(env) && Fresh(store, code, now))
    ensures FromCache(env, store, code, ctx, now) == Missed(env, store, code, ctx, now)
  {
  }

  /**
    Scanning twice: once a run has built and stored a document, any later run
    for the same barcode before the time to live runs out is served from the
    cache, with the same document and the scan count one higher.
   */
  lemma SecondScanHitsCache(env: Env, store: Store, code: string, ctx: Context, t1: int,
                            env2: Env, ctx2: Context, t2: int)
    ensures var run := FromCache(env, store, code, ctx, t1);
            var again := FromCache(env2, run.store, code, ctx2, t2);
            && !(CacheServes(env) && Fresh(store, code, t1))
            && run.outcome.Done? && run.outcome.product.Some? && run.outcome.product.value.meta.Some?
            && CacheServes(env2) && t2 < t1 + env.ttlDays * MsPerDay
            ==>
            && again.outcome == Done(again.outcome.product, true)
            && again.outcome.product.Some?
            && again.outcome.product.value.doc == run.outcome.product.value.doc
            && again.outcome.product.value.meta.value.scanCount == run.outcome.product.value.meta.value.scanCount + 1
  {
  }

  /** After a fetch, only a configured client's answer with a nameless risk entry makes the run throw. */
  lemma AnalysedThrowCause(env: Env, store: Store, raw: Fetched, ctx: Context, now: int)
    ensures Analysed(env, store, raw, ctx, now).outcome.Threw? ==>
              && env.ai.Configured?
              && env.ai.complete(raw, ctx).Answered?
              && !WellNamed(AiAnalysis.Sanitise(env.ai.complete(raw, ctx).reply).ingredientRisks)
  {
    MergeThrowCause(env.ai, raw, ctx);
  }

  /** The merge of an analysis throws only on a configured client's answer with a nameless risk entry. */
  lemma MergeThrowCause(ai: AiAnalysis.AiClient, raw: Fetched, ctx: Context)
    ensures var a := AiAnalysis.AnalyzeProduct(ai, raw, ctx);
            a.Some? && MergeRisks(raw.ingredients, a.value.ingredientRisks).None? ==>
              && ai.Configured?
              && ai.complete(raw, ctx).Answered?
              && !WellNamed(AiAnalysis.Sanitise(ai.complete(raw, ctx).reply).ingredientRisks)
  {
    var a := AiAnalysis.AnalyzeProduct(ai, raw, ctx);
    if a.Some? {
      WellNamedMerges(raw.ingredients, a.value.ingredientRisks);
      FallbackRisks(raw);
    }
  }

  /**
    The only exception after validation is the merge's TypeError, and it needs
    a configured client whose answer for the fetched record holds a risk entry
    without a string name.
   */
  lemma TypeErrorCause(env: Env, store: Store, code: string, ctx: Context, now: int)
    requires FromCache(env, store, code, ctx, now).outcome.Threw?
    ensures var fetched := Catalog.FetchProduct(code, env.catalog(code));
            && fetched.Some?
            && env.ai.Configured?
            && env.ai.complete(fetched.value, ctx).Answered?
            && !WellNamed(AiAnalysis.Sanitise(env.ai.complete(fetched.value, ctx).reply).ingredientRisks)
  {
    var raw := Catalog.FetchProduct(code, env.catalog(code)).value;
    AnalysedThrowCause(env, store, raw, ctx, now);
  }
}

=== FILE: product_model.dfy ===
/**
  The records the backend passes around: the stored product document with its
  embedded ingredients (backend/models/Product.js), the analyser's verdict, and
  the request context. The schema's field constraints are the predicates
  `ValidIngredient` and `ValidProduct`; Mongoose refuses to save a document that
  breaks them.
 */
module ProductModel {
  import opened Wrappers

  const RiskLow := "low"
  const RiskModerate := "moderate"
  const RiskHigh := "high"

  /** The values the ingredient schema's `riskLevel` enum admits. */
  const RiskLevels: set<string> := {RiskLow, RiskModerate, RiskHigh}

  datatype Ingredient = Ingredient(
    name: string,
    percentage: Option<real>,
    isHarmful: bool,
    riskLevel: string,
    description: string)

  /**
    An ingredient as the catalog mapping first builds it: the given name and
    percentage, not harmful, risk "low" and an empty description, which the
    analysis may later overwrite.
   */
  function FreshIngredient(name: string, percentage: Option<real>): (i: Ingredient)
    ensures i.name == name && i.percentage == percentage
    ensures !i.isHarmful && i.riskLevel == RiskLow && i.description == ""
    ensures name != "" ==> ValidIngredient(i)
  {
    Ingredient(name, percentage, false, RiskLow, "")
  }

  /** The ingredient schema: a name is required (Mongoose refuses the empty string) and the risk level is an enum value. */
  predicate ValidIngredient(i: Ingredient) {
    i.name != "" && i.riskLevel in RiskLevels
  }

  predicate AllValidIngredients(ings: seq<Ingredient>) {
    forall i :: 0 <= i < |ings| ==> ValidIngredient(ings[i])
  }

  /** One banned-substance hit of the region rule table. */
  datatype Violation = Violation(ingredient: string, reason: string)

  /** A product as the catalog mapping produces it, before any analysis. */
  datatype Fetched = Fetched(
    barcode: string,
    productName: string,
    brand: string,
    category: string,
    imageUrl: Option<string>,
    nutriScore: string,
    nutriments: map<string, real>,
    ingredients: seq<Ingredient>)

  /** The product document the pipeline builds and caches. */
  datatype Product = Product(
    barcode: string,
    productName: string,
    brand: string,
    category: string,
    imageUrl: Option<string>,
    nutriScore: string,
    nutriments: map<string, real>,
    ingredients: seq<Ingredient>,
    safetyScore: Option<real>,
    summary: Option<string>,
    healthWarnings: seq<string>,
    harmfulSubstances: seq<string>,
    regionFlags: map<string, seq<Violation>>)

  predicate ValidScore(x: real) {
    0.0 <= x <= 10.0
  }

  /** The product schema: barcode required, ingredients valid, a present safety score within [0, 10]. */
  predicate ValidProduct(p: Product) {
    && p.barcode != ""
    && AllValidIngredients(p.ingredients)
    && (p.safetyScore.Some? ==> ValidScore(p.safetyScore.value))
  }

  const LiveSource := "live"
  const CacheSource := "cache"

  /** The bookkeeping fields the cache adds to a stored document (dates as milliseconds). */
  datatype Meta = Meta(
    cachedAt: int,
    cacheExpiry: int,
    scanCount: nat,
    lastScannedAt: int,
    source: string)

  /**
    A product handed back to the caller: a document read from or written to the
    store carries its bookkeeping fields; a document whose write failed does not.
   */
  datatype Record = Record(doc: Product, meta: Option<Meta>)

  /**
    One entry of an analyser's `ingredientRisks`. `name` is absent when the entry
    has no string name; `isHarmful` is the truthiness of the entry's flag.
   */
  datatype RiskEntry = RiskEntry(
    name: Option<string>,
    riskLevel: Option<string>,
    description: Option<string>,
    isHarmful: bool)

  /** What the analyser returns. */
  datatype Verdict = Verdict(
    safetyScore: real,
    harmfulSubstances: seq<string>,
    healthWarnings: seq<string>,
    ingredientRisks: seq<RiskEntry>,
    summary: Option<string>,
    fallbackMode: bool)

  /** A value of the request context: the client supplies strings; `userId` may be null. */
  datatype CtxValue = Null | Str(s: string)

  type Context = map<string, CtxValue>
}

=== FILE: region.dfy ===
/**
  The region rule evaluator (`computeRegionFlags`, backend/services/regionService.js):
  a three-region table of banned substances, matched as case-insensitive
  substrings of the ingredient names, with unknown region codes judged by the
  US rules.
 */
module Region {
  import opened Wrappers
  import opened JsText
  import opened ProductModel

  datatype RuleSet = RuleSet(banned: seq<string>, regulations: string)

  const DefaultRegion := "US"

  const RegionalRules: map<string, RuleSet> := map[
    "US" := RuleSet(["potassium bromate", "azodicarbonamide"], "FDA"),
    "EU" := RuleSet(["potassium bromate", "azodicarbonamide", "BHA", "BHT"], "EFSA"),
    "IN" := RuleSet(["carmoisine", "sunset yellow"], "FSSAI")
  ]

  /** The property names every plain JavaScript object inherits from `Object.prototype`. */
  const InheritedKeys: set<string> := {
    "constructor", "__proto__", "__defineGetter__", "__defineSetter__",
    "__lookupGetter__", "__lookupSetter__", "hasOwnProperty", "isPrototypeOf",
    "propertyIsEnumerable", "toString", "toLocaleString", "valueOf"
  }

  datatype RegionFlag = RegionFlag(region: string, violations: seq<Violation>)

  /** The rule set of a region: its own table entry, else the US entry. */
  function RulesFor(code: string): (r: RuleSet)
    ensures code in RegionalRules ==> r == RegionalRules[code]
    ensures code !in RegionalRules ==> r == RegionalRules[DefaultRegion]
  {
    if code in RegionalRules then RegionalRules[code] else RegionalRules[DefaultRegion]
  }

  function Reason(code: string, rules: RuleSet): string {
    "Banned or restricted in " + code + " by " + rules.regulations
  }

  function LowerNames(ings: seq<Ingredient>): (r: seq<string>)
    ensures |r| == |ings|
    ensures forall i :: 0 <= i < |ings| ==> r[i] == Lower(ings[i].name)
  {
    seq(|ings|, i requires 0 <= i < |ings| => Lower(ings[i].name))
  }

  /** `names.some((name) => name.includes(term))`. */
  function AnyContains(names: seq<string>, term: string): (r: bool)
    ensures r <==> exists i :: 0 <= i < |names| && Contains(names[i], term)
  {
    if |names| == 0 then false
    else if Contains(names[0], term) then true
    else
      var r := AnyContains(names[1..], term);
      assert forall i :: 1 <= i < |names| ==> names[1..][i - 1] == names[i];
      r
  }

  /** Reference definition: the banned terms, in table order, that occur in some (lower-cased) name. */
  function FlaggedTerms(lowerNames: seq<string>, banned: seq<string>): (r: seq<string>)
    ensures |r| <= |banned|
    ensures forall b :: b in r <==> b in banned && AnyContains(lowerNames, Lower(b))
  {
    if |banned| == 0 then []
    else
      var rest := FlaggedTerms(lowerNames, banned[1..]);
      assert forall b :: b in banned <==> b == banned[0] || b in banned[1..];
      if AnyContains(lowerNames, Lower(banned[0])) then [banned[0]] + rest else rest
  }

  function ViolationsOf(terms: seq<string>, reason: string): (r: seq<Violation>)
    ensures |r| == |terms|
    ensures forall i :: 0 <= i < |terms| ==> r[i] == Violation(terms[i], reason)
  {
    seq(|terms|, i requires 0 <= i < |terms| => Violation(terms[i], reason))
  }

  lemma ViolationsOfCons(b: string, rest: seq<string>, reason: string)
    ensures ViolationsOf([b] + rest, reason) == [Violation(b, reason)] + ViolationsOf(rest, reason)
  {
  }

  function Terms(vs: seq<Violation>): (r: seq<string>)
    ensures |r| == |vs|
    ensures forall i :: 0 <= i < |vs| ==> r[i] == vs[i].ingredient
  {
    seq(|vs|, i requires 0 <= i < |vs| => vs[i].ingredient)
  }

  /**
    The `bannedIngredients.forEach` loop that pushes a violation per matched term:
    it appends to `acc` exactly the violations of the reference `FlaggedTerms`.
   */
  function CollectViolations(lowerNames: seq<string>, banned: seq<string>, reason: string,
                             acc: seq<Violation>): (r: seq<Violation>)
    ensures r == acc + ViolationsOf(FlaggedTerms(lowerNames, banned), reason)
    decreases |banned|
  {
    if |banned| == 0 then acc
    else
      var b := banned[0];
      var hit := AnyContains(lowerNames, Lower(b));
      var acc' := if hit then acc + [Violation(b, reason)] else acc;
      var r := CollectViolations(lowerNames, banned[1..], reason, acc');
      var rest := FlaggedTerms(lowerNames, banned[1..]);
      ViolationsOfCons(b, rest, reason);
      assert hit ==> acc' + ViolationsOf(rest, reason) == acc + ([Violation(b, reason)] + ViolationsOf(rest, reason));
      r
  }

  /**
    `computeRegionFlags` with the rule lookup restricted to the table's own
    entries (see `ComputeRegionFlagsAsWritten` for the lookup as written).
    It never fails; the result names the requested code, and a violation for
    banned term `b` exists exactly when some lower-cased ingredient name
    contains `b` lower-cased.
   */
  function ComputeRegionFlags(ings: seq<Ingredient>, code: string): (r: RegionFlag)
    ensures r.region == code
    ensures |r.violations| <= |RulesFor(code).banned|
    ensures Terms(r.violations) == FlaggedTerms(LowerNames(ings), RulesFor(code).banned)
    ensures forall v :: v in r.violations ==>
              v.ingredient in RulesFor(code).banned
              && v.reason == "Banned or restricted in " + code + " by " + RulesFor(code).regulations
    ensures forall b :: b in RulesFor(code).banned ==>
              ((exists v :: v in r.violations && v.ingredient == b)
               <==> (exists i :: 0 <= i < |ings| && Contains(Lower(ings[i].name), Lower(b))))
  {
    var rules := RulesFor(code);
    var reason := Reason(code, rules);
    CollectedFlags(ings, rules.banned, reason);
    RegionFlag(code, CollectViolations(LowerNames(ings), rules.banned, reason, []))
  }

  /** The loop's violations for any term list and reason: one per term some name contains, all with that reason. */
  lemma CollectedFlags(ings: seq<Ingredient>, banned: seq<string>, reason: string)
    ensures var vs := CollectViolations(LowerNames(ings), banned, reason, []);
            && |vs| <= |banned|
            && Terms(vs) == FlaggedTerms(LowerNames(ings), banned)
            && (forall v :: v in vs ==> v.ingredient in banned && v.reason == reason)
            && (forall b :: b in banned ==>
                  ((exists v :: v in vs && v.ingredient == b)
                   <==> (exists i :: 0 <= i < |ings| && Contains(Lower(ings[i].name), Lower(b)))))
  {
    var names := LowerNames(ings);
    var vs := CollectViolations(names, banned, reason, []);
    var terms := FlaggedTerms(names, banned);
    assert vs == ViolationsOf(terms, reason);
    ViolationsMembership(terms, reason);
    forall b | b in banned
      ensures (exists v :: v in vs && v.ingredient == b)
              <==> (exists i :: 0 <= i < |ings| && Contains(Lower(ings[i].name), Lower(b)))
    {
      FlaggedIffSomeName(ings, b);
    }
  }

  lemma ViolationsMembership(terms: seq<string>, reason: string)
    ensures Terms(ViolationsOf(terms, reason)) == terms
    ensures forall v :: v in ViolationsOf(terms, reason) ==> v.ingredient in terms && v.reason == reason
    ensures forall b :: (exists v :: v in ViolationsOf(terms, reason) && v.ingredient == b) <==> b in terms
  {
    var vs := ViolationsOf(terms, reason);
    forall b | b in terms ensures exists v :: v in vs && v.ingredient == b {
      var k :| 0 <= k < |terms| && terms[k] == b;
      assert vs[k] in vs;
    }
  }

  lemma FlaggedIffSomeName(ings: seq<Ingredient>, b: string)
    ensures AnyContains(LowerNames(ings), Lower(b))
            <==> (exists i :: 0 <= i < |ings| && Contains(Lower(ings[i].name), Lower(b)))
  {
    var names := LowerNames(ings);
    assert forall i :: 0 <= i < |ings| ==> names[i] == Lower(ings[i].name);
  }

  /** An unknown region code is judged by the US rules, while the result and its reasons keep the code. */
  lemma UnknownRegionUsesUS(ings: seq<Ingredient>, code: string)
    requires code !in RegionalRules
    ensures ComputeRegionFlags(ings, code).region == code
    ensures Terms(ComputeRegionFlags(ings, code).violations) == Terms(ComputeRegionFlags(ings, DefaultRegion).violations)
    ensures forall v :: v in ComputeRegionFlags(ings, code).violations ==>
              v.reason == "Banned or restricted in " + code + " by FDA"
  {
    var us := RulesFor(DefaultRegion);
    assert us.regulations == "FDA";
    assert RulesFor(code) == us;
    FdaReason(code);
  }

  /** The US reason text, regrouped; it keeps UnknownRegionUsesUS from unfolding the whole rule table. */
  lemma FdaReason(code: string)
    ensures "Banned or restricted in " + code + " by " + "FDA" == "Banned or restricted in " + code + " by FDA"
  {
    var prefix := "Banned or restricted in " + code;
    assert prefix + " by " + "FDA" == prefix + (" by " + "FDA");
  }

  /** A product without ingredients violates nothing. */
  lemma NoIngredientsNoViolations(code: string)
    ensures ComputeRegionFlags([], code).violations == []
  {
    var banned := RulesFor(code).banned;
    assert forall b :: !AnyContains([], b);
    var terms := FlaggedTerms(LowerNames([]), banned);
    assert LowerNames([]) == [];
    assert terms == [];
  }

  predicate Distinct(s: seq<string>) {
    forall i, j :: 0 <= i < j < |s| ==> s[i] != s[j]
  }

  lemma {:induction false} FlaggedTermsDistinct(lowerNames: seq<string>, banned: seq<string>)
    requires Distinct(banned)
    ensures Distinct(FlaggedTerms(lowerNames, banned))
    decreases |banned|
  {
    if |banned| > 0 {
      assert Distinct(banned[1..]) by {
        forall i, j | 0 <= i < j < |banned| - 1 ensures banned[1..][i] != banned[1..][j] {
          assert banned[1..][i] == banned[i + 1] && banned[1..][j] == banned[j + 1];
        }
      }
      FlaggedTermsDistinct(lowerNames, banned[1..]);
      var rest := FlaggedTerms(lowerNames, banned[1..]);
      assert banned[0] !in banned[1..] by {
        forall k | 0 <= k < |banned| - 1 ensures banned[1..][k] != banned[0] {
          assert banned[1..][k] == banned[k + 1];
        }
      }
      assert banned[0] !in rest;
    }
  }

  /** Every table row lists distinct terms, so a region reports at most one violation per banned term. */
  lemma AtMostOneViolationPerTerm(ings: seq<Ingredient>, code: string)
    ensures Distinct(Terms(ComputeRegionFlags(ings, code).violations))
  {
    var banned := RulesFor(code).banned;
    assert Distinct(banned);
    FlaggedTermsDistinct(LowerNames(ings), banned);
  }

  /**
    An ingredient named "Bread (contains Potassium Bromate)" breaks the EU rule on
    potassium bromate, reported with the term as written in the table.
   */
  lemma BromateInBreadEU(ings: seq<Ingredient>, k: int)
    requires 0 <= k < |ings| && ings[k].name == "Bread (contains Potassium Bromate)"
    ensures Violation("potassium bromate", "Banned or restricted in EU by EFSA")
              in ComputeRegionFlags(ings, "EU").violations
  {
    var term := "potassium bromate";
    var rules := RulesFor("EU");
    assert rules == RuleSet(["potassium bromate", "azodicarbonamide", "BHA", "BHT"], "EFSA");
    BromateOccurs(ings[k].name);
    BromateIsLower();
    var r := ComputeRegionFlags(ings, "EU");
    assert term in rules.banned;
    assert Contains(Lower(ings[k].name), Lower(term));
    assert exists i :: 0 <= i < |ings| && Contains(Lower(ings[i].name), Lower(term));
    assert exists v :: v in r.violations && v.ingredient == term;
    var v :| v in r.violations && v.ingredient == term;
    EuReasonText();
  }

  lemma EuReasonText()
    ensures "Banned or restricted in " + "EU" + " by " + RulesFor("EU").regulations == "Banned or restricted in EU by EFSA"
  {
    assert RulesFor("EU").regulations == "EFSA";
  }

  lemma BromateIsLower()
    ensures Lower("potassium bromate") == "potassium bromate"
  {
    LowerOfLowercase("potassium bromate");
  }

  lemma BromateOccurs(name: string)
    requires name == "Bread (contains Potassium Bromate)"
    ensures Contains(Lower(name), "potassium bromate")
  {
    var l := Lower(name);
    assert l[16..33] == "potassium bromate";
    assert OccursAt(l, "potassium bromate", 16);
  }

  // The lookup as written: `regionalRules[regionCode] || regionalRules.US`
  // reads a plain object, so an inherited property name finds a truthy value
  // that is not a rule set, and `rules.bannedIngredients.forEach` then throws.

  /** The rules `regionalRules[code] || regionalRules.US` yields; None when that value is not a rule set. */
  function RulesForAsWritten(code: string): (r: Option<RuleSet>)
    ensures r.None? <==> code !in RegionalRules && code in InheritedKeys
  {
    if code in RegionalRules then Some(RegionalRules[code])
    else if code in InheritedKeys then None
    else Some(RegionalRules[DefaultRegion])
  }

  /** No inherited property name is a region of the table: the table's codes have two letters, the names more. */
  lemma InheritedOutsideTable(code: string)
    ensures code in InheritedKeys ==> code !in RegionalRules
  {
    TableCodesShort(code);
    InheritedNamesLong(code);
  }

  lemma TableCodesShort(code: string)
    ensures code in RegionalRules ==> |code| == 2
  {
    assert RegionalRules.Keys == {"US", "EU", "IN"};
  }

  lemma InheritedNamesLong(code: string)
    ensures code in InheritedKeys ==> |code| >= 7
  {
  }

  /** `computeRegionFlags` as written: None stands for the TypeError it throws. */
  function ComputeRegionFlagsAsWritten(ings: seq<Ingredient>, code: string): (r: Option<RegionFlag>)
    ensures r.None? <==> code in InheritedKeys
    ensures code !in InheritedKeys ==> r == Some(ComputeRegionFlags(ings, code))
  {
    InheritedOutsideTable(code);
    match RulesForAsWritten(code)
    case None => None
    case Some(rules) =>
      Some(RegionFlag(code, CollectViolations(LowerNames(ings), rules.banned, Reason(code, rules), [])))
  }

  /** Counterexample: region "constructor" makes the evaluator as written throw, where the US rules were meant. */
  lemma InheritedRegionThrows(ings: seq<Ingredient>)
    ensures ComputeRegionFlagsAsWritten(ings, "constructor").None?
    ensures Terms(ComputeRegionFlags(ings, "constructor").violations)
            == Terms(ComputeRegionFlags(ings, DefaultRegion).violations)
  {
    assert "constructor" !in RegionalRules;
    UnknownRegionUsesUS(ings, "constructor");
  }
}

=== FILE: scan_route.dfy ===
/**
  The `POST /scan` handler of backend/routes/products.js: request checks, the
  analysis context, the harmful-ingredient summary, and the mapping of pipeline
  outcomes to HTTP statuses. Token verification is a parameter from the token
  to the verified user id; the rate limiter and the scan log are not modelled.
 */
module ScanRoute {
  import opened Wrappers
  import opened JsText
  import opened ProductModel
  import opened Barcode
  import opened Cache
  import Catalog
  import AiAnalysis
  import Pipeline

  /** The fields of the JSON request body the handler reads. */
  datatype ScanRequest = ScanRequest(
    barcode: BarcodeInput,
    userRegion: Option<string>,
    userContext: Option<Context>,
    idToken: Option<string>)

  datatype HarmfulSummary = HarmfulSummary(
    totalHarmful: nat,
    highRiskCount: nat,
    harmfulIngredients: seq<Ingredient>)

  /** A response body: an error message, or the product's fields with the summary added. */
  datatype Body = Message(text: string) | ScanResult(product: Record, harmfulSummary: HarmfulSummary)

  datatype Response = Response(status: int, body: Body)

  /** The response and the collection after the request. */
  datatype Handled = Handled(response: Response, store: Store)

  const BarcodeRequired := "Barcode is required"
  const NotFound := "Product not found in Open Food Facts. Try another barcode or add custom data later."
  const ServerError := "Server error"

  /**
    `{ region: userRegion || "US", ...userContext, userId }`: the client's
    context overrides the default region, and the verified user id (or null)
    overrides whatever the client sent as `userId`.
   */
  function BuildContext(userRegion: Option<string>, userContext: Option<Context>, uid: Option<string>): (ctx: Context)
    ensures ctx.Keys == {"region", "userId"} + (if userContext.Some? then userContext.value.Keys else {})
    ensures ctx["userId"] == (if uid.Some? then Str(uid.value) else Null)
    ensures userContext.Some? && "region" in userContext.value ==> ctx["region"] == userContext.value["region"]
    ensures userContext.None? || "region" !in userContext.value ==> ctx["region"] == Str(Or(userRegion, "US"))
    ensures forall k :: userContext.Some? && k in userContext.value && k != "userId" ==> ctx[k] == userContext.value[k]
  {
    var base := map["region" := Str(Or(userRegion, "US"))];
    var spread := base + userContext.GetOr(map[]);
    spread["userId" := if uid.Some? then Str(uid.value) else Null]
  }

  /** The user id the handler uses: a truthy token verified by the parameter, else none. */
  function UserOf(idToken: Option<string>, verify: string -> Option<string>): (u: Option<string>)
    ensures idToken.Some? && idToken.value != "" ==> u == verify(idToken.value)
    ensures idToken.None? || idToken.value == "" ==> u.None?
  {
    if idToken.Some? && idToken.value != "" then verify(idToken.value) else None
  }

  /** The region the pipeline flags for a request. */
  lemma RegionOfRequest(userRegion: Option<string>, userContext: Option<Context>, uid: Option<string>)
    ensures var ctx := BuildContext(userRegion, userContext, uid);
            var own := userContext.Some? && "region" in userContext.value;
            && (!own ==> Pipeline.RegionOf(ctx) == Or(userRegion, "US"))
            && (own && userContext.value["region"].Str? && userContext.value["region"].s != ""
                ==> Pipeline.RegionOf(ctx) == userContext.value["region"].s)
            && (own && (userContext.value["region"].Null? || userContext.value["region"].s == "")
                ==> Pipeline.RegionOf(ctx) == "US")
  {
  }

  /** `xs.filter(keep)`. */
  function Filter(xs: seq<Ingredient>, keep: Ingredient -> bool): (r: seq<Ingredient>)
    ensures |r| <= |xs|
    ensures forall x :: x in r ==> x in xs && keep(x)
    ensures forall i :: 0 <= i < |xs| && keep(xs[i]) ==> xs[i] in r
    ensures (forall i :: 0 <= i < |xs| ==> !keep(xs[i])) ==> r == []
  {
    if |xs| == 0 then []
    else
      var rest := Filter(xs[1..], keep);
      assert forall i :: 1 <= i < |xs| ==> xs[1..][i - 1] == xs[i];
      if keep(xs[0]) then [xs[0]] + rest else rest
  }

  /** Filtering commutes with concatenation, so it keeps the input's order. */
  lemma {:induction false} FilterAppend(a: seq<Ingredient>, b: seq<Ingredient>, keep: Ingredient -> bool)
    ensures Filter(a + b, keep) == Filter(a, keep) + Filter(b, keep)
  {
    if |a| == 0 {
      assert a + b == b;
    } else {
      assert (a + b)[1..] == a[1..] + b;
      FilterAppend(a[1..], b, keep);
    }
  }

  /** Filtering twice with the same test filters once. */
  lemma {:induction false} FilterIdempotent(xs: seq<Ingredient>, keep: Ingredient -> bool)
    ensures Filter(Filter(xs, keep), keep) == Filter(xs, keep)
  {
    if |xs| > 0 {
      FilterIdempotent(xs[1..], keep);
      if keep(xs[0]) {
        assert ([xs[0]] + Filter(xs[1..], keep))[1..] == Filter(xs[1..], keep);
      }
    }
  }

  predicate Harmful(i: Ingredient) { i.isHarmful }

  predicate HighRisk(i: Ingredient) { i.riskLevel == RiskHigh }

  /**
    The `harmfulSummary` of a response: the harmful ingredients in their order,
    their number, and how many of them are high risk.
   */
  function Summarise(ings: seq<Ingredient>): (s: HarmfulSummary)
    ensures s.harmfulIngredients == Filter(ings, Harmful)
    ensures s.totalHarmful == |s.harmfulIngredients|
    ensures s.highRiskCount <= s.totalHarmful
    ensures s.highRiskCount == |Filter(s.harmfulIngredients, HighRisk)|
    ensures (forall i :: 0 <= i < |ings| ==> !ings[i].isHarmful) ==> s.totalHarmful == 0
  {
    var harmful := Filter(ings, Harmful);
    var high := Filter(harmful, HighRisk);
    HarmfulSummary(|harmful|, |high|, harmful)
  }

  /** The response for a pipeline outcome, as the handler's `try`/`catch` shapes it. */
  function Respond(run: Pipeline.Run): (h: Handled)
    ensures h.store == run.store
    ensures h.response.status in {200, 400, 404, 500}
    ensures h.response.status == 400 <==> run.outcome.Threw? && run.outcome.error.InvalidBarcode?
    ensures h.response.status == 400 ==> h.response.body == Message(run.outcome.error.message)
    ensures h.response.status == 404 <==> run.outcome.Done? && run.outcome.product.None?
    ensures h.response.status == 404 ==> h.response.body == Message(NotFound)
    ensures h.response.status == 500 <==> run.outcome == Pipeline.Threw(Pipeline.TypeError)
    ensures h.response.status == 500 ==> h.response.body == Message(ServerError)
    ensures h.response.status == 200 <==> h.response.body.ScanResult?
    ensures h.response.body.ScanResult? ==>
              && run.outcome.Done? && run.outcome.product == Some(h.response.body.product)
              && h.response.body.harmfulSummary == Summarise(h.response.body.product.doc.ingredients)
  {
    match run.outcome
    case Threw(InvalidBarcode(message)) => Handled(Response(400, Message(message)), run.store)
    case Threw(TypeError) => Handled(Response(500, Message(ServerError)), run.store)
    case Done(None, _) => Handled(Response(404, Message(NotFound)), run.store)
    case Done(Some(rec), _) => Handled(Response(200, ScanResult(rec, Summarise(rec.doc.ingredients))), run.store)
  }

  /** The context a request is analysed with. */
  function ContextOf(req: ScanRequest, verify: string -> Option<string>): Context {
    BuildContext(req.userRegion, req.userContext, UserOf(req.idToken, verify))
  }

  /**
    The handler. A falsy barcode is refused before anything runs; otherwise the
    pipeline's outcome decides the status: the validator's error is 400, no
    product is 404, a product is 200 with its summary, and any other exception
    is 500.
   */
  function HandleScan(env: Pipeline.Env, verify: string -> Option<string>, store: Store,
                      req: ScanRequest, now: int): (h: Handled)
    ensures h.response.status in {200, 400, 404, 500}
    ensures !IsTruthy(req.barcode) ==> h == Handled(Response(400, Message(BarcodeRequired)), store)
    ensures IsTruthy(req.barcode) ==> h == Respond(Pipeline.AnalyzeAndCache(env, store, req.barcode, ContextOf(req, verify), now))
    ensures h.response.status == 400 <==> !IsTruthy(req.barcode) || Validate(req.barcode).Invalid?
    ensures IsTruthy(req.barcode) && Validate(req.barcode).Invalid? ==>
              h == Handled(Response(400, Message(InvalidBarcodeMessage)), store)
    ensures h.response.status in {404, 500} ==> h.store == store
    ensures StoreInvariant(store) ==> StoreInvariant(h.store)
  {
    if !IsTruthy(req.barcode) then
      Handled(Response(400, Message(BarcodeRequired)), store)
    else
      Respond(Pipeline.AnalyzeAndCache(env, store, req.barcode, ContextOf(req, verify), now))
  }

  /**
    A 500 has one cause: the analyser client answered for the fetched product
    with a risk entry whose name is not a string, ahead of any match.
   */
  lemma ServerErrorNeedsMalformedRisk(env: Pipeline.Env, verify: string -> Option<string>, store: Store,
                                      req: ScanRequest, now: int)
    ensures HandleScan(env, verify, store, req, now).response.status == 500 ==>
            && Validate(req.barcode).Valid?
            && var code := Validate(req.barcode).barcode;
            var fetched := Catalog.FetchProduct(code, env.catalog(code));
            && fetched.Some?
            && env.ai.Configured?
            && env.ai.complete(fetched.value, ContextOf(req, verify)).Answered?
            && !Pipeline.WellNamed(AiAnalysis.Sanitise(env.ai.complete(fetched.value, ContextOf(req, verify)).reply).ingredientRisks)
  {
    if HandleScan(env, verify, store, req, now).response.status == 500 {
      var code := Validate(req.barcode).barcode;
      Pipeline.TypeErrorCause(env, store, code, ContextOf(req, verify), now);
    }
  }

  /** So without an analyser client, and with any catalog outcome, the handler never answers 500. */
  lemma UnconfiguredNeverServerError(env: Pipeline.Env, verify: string -> Option<string>, store: Store,
                                     req: ScanRequest, now: int)
    requires env.ai.Unconfigured?
    ensures HandleScan(env, verify, store, req, now).response.status != 500
  {
    ServerErrorNeedsMalformedRisk(env, verify, store, req, now);
  }

  /** A catalog that fails or does not know the barcode gives 404 after a cache miss, and nothing is written. */
  lemma CatalogMissIsNotFound(env: Pipeline.Env, verify: string -> Option<string>, store: Store,
                              req: ScanRequest, now: int)
    ensures && IsTruthy(req.barcode) && Validate(req.barcode).Valid?
            && !(Pipeline.CacheServes(env) && Fresh(store, Validate(req.barcode).barcode, now))
            && !Catalog.IsFound(env.catalog(Validate(req.barcode).barcode))
            ==>
            HandleScan(env, verify, store, req, now) == Handled(Response(404, Message(NotFound)), store)
  {
  }
}

=== FILE: wrappers.dfy ===
/** Option, standing for a JavaScript value that may be `null` or `undefined`. */
module Wrappers {

  datatype Option<+T> = None | Some(value: T) {

    /** The wrapped value, or `default` when there is none. */
    function GetOr(default: T): T {
      match this
      case Some(v) => v
      case None => default
    }
  }
}
